=== FILE: README.md ===
# Realtime chat: dispatch, relationship rules and the chat screen's view logic

This project models the core of a small realtime chat application in Dafny.

On the server side it covers the socket handlers: `join`, `private message`, `group message` and `disconnect`. It also covers the HTTP handlers that change relationships (friend request, accept, create group, join group) and the read queries (direct and group history, friends, pending requests). These run over an abstract, immutable store: the five tables as sequences of rows, with the schema's uniqueness and reference constraints as the invariant `Store.Valid`. The invariant also holds a rule the handlers maintain rather than the schema: at most one friend edge per unordered pair of users (the schema's `UNIQUE(user_id, friend_id)` is directed). Next to the store sits the socket.io room registry, a map from user id to that user's live connections.

Every handler is a pure function. It returns the new store and the emissions it makes. An emission is a target (a user's room or the originating connection) plus an event. Each database query of the write handlers (the socket message handlers, friend request, accept, create group, join group) can fail: query `k` of a handler fails exactly when `k` is in the handler's `fails` set. The four read queries are modelled on their success path only (see "## Left out"). `Rooms.Deliver` turns emissions into the events each live connection receives.

On the client side it covers the chat screen:
- the selection filter for incoming messages;
- the duplicate-suppressing merge into the visible message list;
- history loading;
- friend/group selection;
- the send guard, with `String.prototype.trim`;
- the connection status and reconnect decisions.

Modules: `Types`, `Seqs` (scans, filters, ORDER BY), `Store`, `Events`, `Rooms`, `History`, `Dispatch`, `Friends`, `Groups`, `Server` (the socket server as one machine over the four socket events, plus end-to-end runs), `Text`, `ChatView`, `Connection`.

Behaviours of the code the model keeps as written:
- The server stores blank message content. Only the client refuses it (`Dispatch.BlankContentIsStored`).
- A user may send a friend request to themselves. Such a self-edge is allowed by the code and by `Store.OneEdgePerPair`.
- Both `friend_accepted` events carry the accepter's own username, so the accepter is shown their own name.
- A failed group-membership read happens after the insert. The message stays stored, and the sender gets an error.
- A group message can be sent by anyone, member or not. The sender gets a copy only as a member.
- History rows have no `senderId`, so a live copy of a message already loaded from history is not recognised as a duplicate. It shows twice (`ChatView.OverlapShowsTwice`).

## Model

| member | source | states |
|---|---|---|
| Store.UsernameOf | server/server.js:414-415 | The sender lookup yields a name exactly when the id has a users row, and that row carries the name |
| Store.UserIdByName | server/server.js:155-159 | The friend lookup yields an id whose row has the given username, and yields nothing exactly when no row has it |
| Store.GroupIdByCode | server/server.js:354-363 | The code lookup finds a group with that code, and finds nothing exactly when no group has it |
| Store.MembersOf | server/server.js:460-463 | The member read lists exactly the users with a membership row for the group, once per row |
| Store.OneEdgePerPairGivesUniqueColumns | server/config/init-db.js:28 | The one-edge-per-unordered-pair invariant implies the schema's UNIQUE(user_id, friend_id) |
| Store.UsernameIsUnique | server/config/init-db.js:12 | With unique user rows, the username lookup returns the user's one name |
| Store.AppendMessagePreservesValid | server/config/init-db.js:62-70 | Inserting a message with an existing sender and addressee keeps every table constraint |
| Store.AppendMessage | server/server.js:408-411 | The message insert keeps every earlier row, adds one row with the next SERIAL id and the given sender, addressee, content and time, keeps ids increasing and touches no other table; its partner `Store.AppendMessagePreservesValid` shows the insert keeps the store invariant |
| Store.AddEdgePreservesValid | server/config/init-db.js:22-29 | A friends row between two existing users that no edge joins yet keeps every table constraint and the one-edge-per-pair rule |
| Store.AddGroupPreservesValid | server/config/init-db.js:36-41 | A groups row under the next id, with a free code and an existing creator, keeps every table constraint, and no existing membership points at the new id |
| Store.AddMemberPreservesValid | server/config/init-db.js:49-55 | A group_members row for an existing group and user that is not yet stored keeps every table constraint |
| Rooms.Join | server/server.js:398 | Joining adds the connection to that user's room only and leaves every other room as it was |
| Rooms.Leave | server/server.js:479-481 | A disconnect removes the connection from every room, touches nothing else, and leaves no empty room |
| Rooms.JoinIdempotent | server/server.js:398 | Re-joining with the same id changes nothing |
| Rooms.JoinAll | server/server.js:396-400 | A series of joins puts the connection in exactly the rooms of the ids it sent |
| Rooms.LeaveUndoesJoins | server/server.js:479-481 | However many joins a fresh connection made, its disconnect restores the registry exactly |
| Rooms.Deliver | server/server.js:427-428 | A connection receives an event exactly when some emission carries it and targets that connection's room or origin |
| Rooms.EmptyRoomDropsEvent | server/server.js:185-188 | An event for a user with no live connections is dropped silently |
| Rooms.LeftConnectionGetsNoRoomEvent | server/server.js:479-481 | After a disconnect, no room event reaches the connection |
| History.DirectHistory | server/server.js:278-285 | Direct history is ascending by created_at and holds each message between the two users (either direction, sender known) as often as stored |
| History.GroupHistory | server/server.js:260-266 | Group history is ascending by created_at and holds each message of the group (sender known) as often as stored |
| History.DirectHistoryExact | server/server.js:281-283 | Under the store invariant, direct history holds exactly the stored messages between the two users |
| History.GroupHistoryExact | server/server.js:263-264 | Under the store invariant, group history holds exactly the stored messages of the group |
| History.DirectHistorySymmetric | server/server.js:282-283 | Both participants fetch the same conversation |
| Dispatch.OnJoin | server/server.js:396-400 | join puts the connection in the room of whatever id it supplies and sends `connected` to that connection only |
| Dispatch.OnDisconnect | server/server.js:479-481 | After disconnect the connection is in no room; other connections keep their rooms |
| Dispatch.OnPrivateMessage | server/server.js:402-433 | A failed insert stores nothing and sends one error to the origin. A failed lookup after the insert leaves the message stored and undelivered. Success sends one identical payload (id, sender, receiver, content, timestamp, username) to the sender's room and then the receiver's room. Only stored messages fan out |
| Dispatch.OnGroupMessage | server/server.js:435-473 | As for private messages, but on success one copy goes to each membership row of the group read after the insert, in the stored row order, which the model fixes because the SELECT has no ORDER BY |
| Dispatch.ErrorsOnlyToOrigin | server/server.js:429-432 | An error in either message handler is the only emission and goes to the originating socket |
| Dispatch.MessageHandlersPreserveValid | server/server.js:408-411 | Both message handlers keep the store invariant |
| Dispatch.GroupFanoutIsMembershipSnapshot | server/server.js:459-468 | A user's room gets a group message exactly when the user had a membership row at dispatch time, so a non-member sender gets no copy and later members get nothing |
| Dispatch.GroupFanoutOncePerMember | server/server.js:466-468 | Under the membership uniqueness constraint each member's room is addressed exactly once |
| Dispatch.DeliveredMessageInHistory | server/server.js:408-411 | A delivered direct message is in both participants' direct history |
| Dispatch.BlankContentIsStored | server/server.js:404-411 | The server stores empty content: it does no content validation |
| Dispatch.JoinIsUnauthenticated | server/server.js:396-400 | Any connection that joins a user id receives that user's room events |
| Friends.OnFriendRequest | server/server.js:145-201 | A request is stored exactly when a non-zero user id and a non-empty friend username are given, the queries succeed, the username exists, no edge joins the pair in either direction and the requester exists. It then adds exactly one pending edge and sends one friend_request to the target's room. Otherwise nothing changes and nothing is sent, and an existing edge gives the "already" error |
| Friends.OnAccept | server/server.js:222-254 | Accept succeeds exactly when the UPDATE succeeds and a pending friendId to userId edge exists. Only such edges become accepted, and friend_accepted goes to both rooms. Otherwise nothing changes or is sent, and a missing edge gives the 400 error |
| Friends.AcceptRows | server/server.js:227-233 | The UPDATE keeps every row's ends and length, makes a row accepted exactly when it already was or is a pending friendId to userId edge, and changes nothing when no such edge exists; its partner `Friends.AcceptChangesOneEdge` shows that under the invariant exactly one row changes |
| Friends.RequestAndAcceptOnlyAdvance | server/server.js:227-233 | Neither handler removes or rewires an edge, and an accepted edge stays accepted |
| Friends.NewEdgesArePending | server/server.js:177-180 | Edges added by a request are pending |
| Friends.AcceptChangesOneEdge | server/server.js:227-237 | Under the invariant a successful accept changes exactly one edge, from pending to accepted |
| Friends.FriendRequestPreservesValid | server/server.js:161-180 | A request keeps the store invariant, including at most one edge per pair |
| Friends.AcceptPreservesValid | server/server.js:227-233 | Accept keeps the store invariant |
| Friends.SecondRequestRefused | server/server.js:161-174 | Once a request is stored, repeating it gets 400 "Friend request already pending". The reverse request is refused, and when it names the requester by a non-empty username it gets that same 400 reply |
| Friends.UsersFor | server/server.js:132-134 | Joining ids with users yields existing user rows, and lists an id exactly when it is listed and has a row |
| Friends.UsersForCounts | server/server.js:132-134 | The join yields one row per listed id that has a users row: an id listed n times appears n times, an unknown id never |
| Friends.Ends | server/server.js:134-135 | The projected ends are exactly those of the selected edges |
| Friends.EndsNewestFirst | server/server.js:210-212 | The projected ends are exactly those of the selected edges |
| Friends.FriendsOf | server/server.js:128-142 | The friend list names exactly the users linked to the user by an accepted edge, either direction |
| Friends.PendingFor | server/server.js:204-219 | The pending list names exactly the users with a pending request to the user |
| Groups.OnCreateGroup | server/server.js:294-327 | No emissions. A fault, a taken code (400) or an unknown creator stores nothing. Otherwise the group gets the next id. A second-insert fault leaves it without members (500). Else the creator becomes a member and the group is returned |
| Groups.OnJoinGroup | server/server.js:349-390 | No emissions. Success exactly when the code is known, the user is not yet a member, the user exists and the queries succeed. Success adds exactly one membership row. Unknown code and existing membership give their 400 errors with nothing changed |
| Groups.CreatorIsMember | server/server.js:309-318 | A returned group has its creator as a member and is found by its code |
| Groups.CreateGroupPreservesValid | server/server.js:302-313 | Group creation keeps the store invariant (code and membership uniqueness, references) |
| Groups.JoinGroupPreservesValid | server/server.js:375-379 | Joining keeps the store invariant |
| Groups.SecondJoinRefused | server/server.js:365-373 | A repeated join is refused as "already a member" and changes nothing |
| Server.Handle | server/server.js:393-481 | Every socket event keeps the store invariant, errors target the origin, fanned-out messages are stored, disconnect empties the connection's rooms |
| Server.Step | server/server.js:426-431 | Errors are delivered to the originating connection only, and a message reaches a connection only once stored |
| Server.DirectMessageReachesBothUsers | server/server.js:426-428 | A stored direct message reaches every connection of sender and receiver with one payload, and nothing else is delivered |
| Server.OfflineReceiverGetsNothingLive | server/server.js:408-428 | An offline receiver gets nothing live, but the message is stored and is in the receiver's next direct-history fetch |
| Server.SelfEchoShowsSentMessage | client/src/components/Chat.js:313-315 | A sent direct message comes back to the sending connection. The sender's view then shows it, if new as a last entry marked sent with the draft's text |
| Text.TrimStart | client/src/components/Chat.js:304 | Leading trim removes a blank prefix and leaves a suffix that starts with a non-space |
| Text.TrimEnd | client/src/components/Chat.js:304 | Trailing trim removes a blank suffix and leaves a prefix that ends with a non-space |
| Text.TrimEmptyIffBlank | client/src/components/Chat.js:304 | `trim()` gives the empty string exactly when the draft is all white space |
| Text.TrimIsInfix | client/src/components/Chat.js:304 | The trimmed string is a contiguous part of the original |
| ChatView.HasCopy | client/src/components/Chat.js:178-182 | The duplicate check holds exactly when some entry has the same senderId, content and timestamp |
| ChatView.LiveEntry | client/src/components/Chat.js:184-188 | A live entry matches its message, and isSent holds exactly when the sender is the current user |
| ChatView.Merge | client/src/components/Chat.js:176-189 | Merging keeps every earlier entry. It adds one entry at the end exactly when no copy exists, and the view then holds a copy |
| ChatView.MergeIdempotent | client/src/components/Chat.js:178-183 | Merging the same message twice equals merging it once |
| ChatView.MergeKeepsNoLiveDuplicates | client/src/components/Chat.js:183-188 | Merging never creates two live entries with the same duplicate key |
| ChatView.HistoryEntry | client/src/components/Chat.js:263-267 | A history entry has no senderId, its isSent reflects sender_id, and it keeps the row's content, time and id |
| ChatView.LoadHistory | client/src/components/Chat.js:262-267 | A history response replaces the view with one entry per row, in order, and touches nothing else |
| ChatView.HistoryNeverSuppressesLiveCopy | client/src/components/Chat.js:263-267 | A live message merged into a freshly loaded history view is always appended |
| ChatView.OverlapShowsTwice | client/src/components/Chat.js:178-182 | When history already holds the delivered message, the view ends with two entries with its id |
| ChatView.ReceivePrivate | client/src/components/Chat.js:171-191 | A private message changes only the view, and only when a friend is selected who is its sender or receiver; then it is merged |
| ChatView.ReceiveGroup | client/src/components/Chat.js:193-211 | A group message changes only the view, and only when its group is the selected one; then it is merged |
| ChatView.ReceiveIdempotent | client/src/components/Chat.js:176-183 | Receiving the same message twice equals receiving it once |
| ChatView.ReceiveTouchesOnlySelected | client/src/components/Chat.js:173-189 | A changed view means the selected conversation matched and exactly the live entry was appended |
| ChatView.SelectFriend | client/src/components/Chat.js:239-246 | Selecting a friend clears the group and empties the view |
| ChatView.SelectGroup | client/src/components/Chat.js:248-255 | Selecting a group clears the friend and empties the view |
| ChatView.Send | client/src/components/Chat.js:302-322 | Nothing is emitted exactly when the draft is blank or nothing is selected. Otherwise exactly one event carries the untrimmed draft: `private message` to the selected friend, else `group message` to the group. The draft is then cleared and nothing else changes |
| ChatView.RunKeepsInvariants | client/src/components/Chat.js:239-255 | Through any sequence of the screen's handlers, at most one conversation stays selected and no live duplicate appears |
| Connection.React | client/src/components/Chat.js:125-153 | connect gives `connected` and one join with the user's id. connect_error gives `error` and one 5000 ms reconnect. A disconnect gives `disconnected`, with a reconnect unless the reason is `io client disconnect`. A timer reconnects only a live socket |
| Connection.CountsAdd | client/src/components/Chat.js:125-153 | Action counts add over concatenated runs |
| Connection.OneJoinPerConnect | client/src/components/Chat.js:125-129 | Over any run, join is emitted exactly once per connect event, so every reconnect re-joins |
| Connection.OneReconnectPerFailure | client/src/components/Chat.js:131-153 | Over any run, one reconnect is scheduled per connect error and per disconnect not initiated by the client |
| Connection.StatusFollowsLastEvent | client/src/components/Chat.js:127-144 | The status after a run reflects the last connection event |
| Connection.TimersKeepStatus | client/src/components/Chat.js:135-139 | Reconnect timers do not change the status |
| Connection.ConnectedOnlyAfterConnect | client/src/components/Chat.js:125-145 | From a status other than connected, the indicator reads connected only after a run that contains a connect event |
| Connection.InitiallyNotConnected | client/src/components/Chat.js:12 | The indicator starts as disconnected, so it never shows connected before the first connect event |

## Left out

- Registration, login, JWT signing and verification, and bcrypt hashing (server/server.js:34-125). These are authentication plumbing and library calls. The token's username appears only as a parameter (`requesterName`, `accepterName`).
- Postgres error-code mapping. Faults are modelled as a failing query, and constraint violations as failed inserts with the status and message the handler picks for them.
- The socket.io transport options and its internal reconnection backoff (server/server.js:19-31, client/src/components/Chat.js:113-121). Only the application-level decisions are modelled.
- Random group-code generation (server/server.js:299). The code is an input of `Groups.OnCreateGroup`.
- Parsing timestamps with `Date`. Timestamps are opaque integers, and the client-supplied timestamp is stored as `created_at` unchanged.
- Concurrency between asynchronous handlers. Each event is one atomic step, so a disconnect between membership read and fan-out cannot happen inside the model.
- Logging (winston and console).
- The socket's `error` listener (server/server.js:475-477), which only logs.
- `GET /api/groups/:userId` (server/server.js:330-346), a read query outside the dispatch core.
- React rendering, modals, snackbars, localStorage (including restoring both selections at client/src/components/Chat.js:431-441), axios calls, the session-check interval, and the friend/group refreshes triggered by `friend_request`/`friend_accepted`.
- Re-creating the socket whenever the selection changes (the effect at client/src/components/Chat.js:109-221). The client model handles each event with the current selection.
- Stale history responses that arrive after the selection has changed.
- client/src/contexts/AuthContext.js and client/src/App.js. They hold token storage and routing only.
- server/config/init-db.js as executable DDL. Only its constraints are used, as `Store.Valid`.
- SERIAL values consumed by failed inserts. The model advances the id counters only on success, which keeps ids unique and increasing just the same.
- Ties in `ORDER BY created_at`. Postgres leaves their order unspecified. The model's sort orders them one fixed way, and no contract depends on it.
- The order of the group fan-out. The member SELECT (server/server.js:460-463) has no ORDER BY, so Postgres may return the rows in any order. `Dispatch.OnGroupMessage` emits in stored row order, which is the model's choice; the contracts about the fan-out (`Dispatch.GroupFanoutIsMembershipSnapshot`, `Dispatch.GroupFanoutOncePerMember`) speak of which rooms are addressed and how often, not in what order.
- Socket payloads and HTTP request bodies are assumed well formed: every field present and of the right type. The handlers never check this. With a missing field the code behaves outside the model:
  - a `private message` without `receiverId` stores a row with both addressees NULL, emits to the sender's room, then throws on `receiverId.toString()` and sends an error to the origin as well (server/server.js:404-431);
  - a `group message` without `groupId` stores a row with both addressees NULL and emits nothing;
  - a `join` without an id throws outside any `try` (server/server.js:396-398);
  - `POST /api/groups/join` without `userId` (server/server.js:351) finds no membership for `user_id = NULL` (:366-369), then inserts a row with a NULL `user_id` (:376-379), which passes the REFERENCES and UNIQUE constraints, and succeeds;
  - `POST /api/groups` without `createdBy` (server/server.js:296, 306, 312) creates the group and a membership row with NULL user ids, and succeeds.
  `Store.Addressee` therefore holds only the rows well-formed payloads produce, and `Dispatch.ErrorsOnlyToOrigin` is a statement about well-formed payloads. Ids are `nat`, which has no NULL.
- Ids are assumed to fit in a Postgres INTEGER. The model's ids are unbounded, while the columns are 32-bit. An id of 2^31 or more makes the query raise an out-of-range error, which the handlers report as 500:
  - a `friendId` that large in accept fails the UPDATE (server/server.js:228-233) and replies 500 (:250-252), where `Friends.OnAccept` replies 400 "No pending friend request found";
  - a `userId` that large in a friend request fails the query at server/server.js:163 and replies 500 (:198), where `Friends.OnFriendRequest` replies 400 "Invalid user ID".
- History.DirectHistory: models the successful read only. A failing query makes the source reply 500 "Error fetching messages" (server/server.js:287-290), and the model has no `fails` set for it.
- History.GroupHistory: models the successful read only. A failing query gives 500 "Error fetching group messages" (server/server.js:268-271), which is not modelled.
- Friends.FriendsOf: models the successful read only. A failing query gives 500 "Error fetching friends" (server/server.js:138-141), which is not modelled.
- Friends.PendingFor: models the successful read only. A failing query gives 500 "Error fetching pending requests" (server/server.js:215-218), which is not modelled.
- Friends.PendingFor: does not state the newest-first order of `ORDER BY f.created_at DESC`. It only states which requesters are listed, because the model has no per-edge creation time.
- Friends.EndsNewestFirst: states which ends are listed, not that they come newest first, for the same reason.

=== FILE: chatview.dfy ===
/** The chat screen's message logic: which incoming events touch the visible
    conversation, the duplicate-suppressing merge, history loading, the
    friend/group selection and the send guard. */
module ChatView {
  import opened Types
  import opened Store
  import opened Events
  import opened Text
  import History

  /** A visible message. Live copies carry `senderId`; rows loaded from
      history carry only the `sender_id` column, so for them it is absent. */
  datatype Entry = Entry(
    senderId: Option<UserId>,
    content: string,
    timestamp: Timestamp,
    isSent: bool,
    id: MessageId,
    senderUsername: string)

  /** The screen's state: the signed-in user, at most one selected
      conversation (by id), the visible messages and the draft. */
  datatype ChatState = ChatState(
    me: UserId,
    friend: Option<UserId>,
    group: Option<GroupId>,
    view: seq<Entry>,
    draft: string)

  // ----- Merge of a live message -----

  /** The duplicate test: same `senderId`, same content, same instant. */
  predicate SameMessage(e: Entry, p: Payload) {
    e.senderId == Some(p.senderId) && e.content == p.content && e.timestamp == p.timestamp
  }

  /** `prev.some(...)` over the view. */
  function HasCopy(view: seq<Entry>, p: Payload): (b: bool)
    ensures b <==> exists i :: 0 <= i < |view| && SameMessage(view[i], p)
  {
    if |view| == 0 then false
    else SameMessage(view[0], p) || (assert forall i :: 1 <= i < |view| ==> view[1..][i - 1] == view[i]; HasCopy(view[1..], p))
  }

  /** The entry a live message becomes: the payload's fields, `isSent` set
      for the signed-in user's own messages. */
  function LiveEntry(me: UserId, p: Payload): (e: Entry)
    ensures SameMessage(e, p)
    ensures e.isSent <==> p.senderId == me
    ensures e.id == p.id && e.senderUsername == p.senderUsername
  {
    Entry(Some(p.senderId), p.content, p.timestamp, p.senderId == me, p.id, p.senderUsername)
  }

  /** The merge: earlier entries never change, at most one entry is added
      at the end, and afterwards the view holds a copy of the message. */
  function Merge(view: seq<Entry>, me: UserId, p: Payload): (r: seq<Entry>)
    ensures |r| == |view| + (if HasCopy(view, p) then 0 else 1)
    ensures r[..|view|] == view
    ensures |r| > |view| ==> r[|view|] == LiveEntry(me, p)
    ensures exists i :: 0 <= i < |r| && SameMessage(r[i], p)
  {
    if HasCopy(view, p) then view
    else
      var r := view + [LiveEntry(me, p)];
      assert SameMessage(r[|view|], p);
      r
  }

  /** Delivering the same message twice shows it once. */
  lemma MergeIdempotent(view: seq<Entry>, me: UserId, p: Payload)
    ensures Merge(Merge(view, me, p), me, p) == Merge(view, me, p)
  {
  }

  /** Two live entries never share the duplicate key. */
  ghost predicate NoLiveDuplicates(view: seq<Entry>) {
    forall i, j :: 0 <= i < j < |view| && view[j].senderId.Some? ==>
      !(view[i].senderId == view[j].senderId && view[i].content == view[j].content && view[i].timestamp == view[j].timestamp)
  }

  lemma MergeKeepsNoLiveDuplicates(view: seq<Entry>, me: UserId, p: Payload)
    requires NoLiveDuplicates(view)
    ensures NoLiveDuplicates(Merge(view, me, p))
  {
  }

  // ----- History -----

  /** A fetched row as an entry: `timestamp` from `created_at`, `isSent`
      from `sender_id`, and no `senderId`. */
  function HistoryEntry(me: UserId, row: History.HistoryRow): (e: Entry)
    ensures e.senderId.None?
    ensures e.isSent <==> row.msg.sender == me
    ensures e.content == row.msg.content && e.timestamp == row.msg.createdAt && e.id == row.msg.id
  {
    Entry(None, row.msg.content, row.msg.createdAt, row.msg.sender == me, row.msg.id, row.senderUsername)
  }

  /** A history response replaces the whole view. */
  function LoadHistory(cs: ChatState, rows: seq<History.HistoryRow>): (r: ChatState)
    ensures r == cs.(view := r.view)
    ensures |r.view| == |rows|
    ensures forall i :: 0 <= i < |rows| ==> r.view[i] == HistoryEntry(cs.me, rows[i])
    ensures NoLiveDuplicates(r.view)
  {
    cs.(view := seq(|rows|, i requires 0 <= i < |rows| => HistoryEntry(cs.me, rows[i])))
  }

  /** History rows never suppress a live copy: merging into a freshly loaded
      view always appends, even when a row is the very message being delivered. */
  lemma HistoryNeverSuppressesLiveCopy(cs: ChatState, rows: seq<History.HistoryRow>, p: Payload)
    ensures |Merge(LoadHistory(cs, rows).view, cs.me, p)| == |rows| + 1
  {
  }

  /** So when history and the live event overlap, the message shows twice. */
  lemma OverlapShowsTwice(cs: ChatState, rows: seq<History.HistoryRow>, p: Payload, k: nat)
    requires k < |rows| && rows[k].msg == RowOf(p)
    ensures var v := Merge(LoadHistory(cs, rows).view, cs.me, p);
      exists i, j :: 0 <= i < j < |v| && v[i].id == p.id && v[j].id == p.id
  {
    var v := Merge(LoadHistory(cs, rows).view, cs.me, p);
    HistoryNeverSuppressesLiveCopy(cs, rows, p);
    assert v[k].id == p.id && v[|rows|].id == p.id;
  }

  // ----- Incoming events -----

  /** A private message concerns the selected friend. */
  predicate ShowsPrivate(cs: ChatState, p: Payload) {
    cs.friend.Some? && (p.senderId == cs.friend.value || (p.to.Direct? && p.to.receiver == cs.friend.value))
  }

  /** A group message belongs to the selected group. */
  predicate ShowsGroup(cs: ChatState, p: Payload) {
    cs.group.Some? && p.to == ToGroup(cs.group.value)
  }

  /** `private message` listener. */
  function ReceivePrivate(cs: ChatState, p: Payload): (r: ChatState)
    ensures r == cs.(view := r.view)
    ensures !ShowsPrivate(cs, p) ==> r == cs
    ensures ShowsPrivate(cs, p) ==> r.view == Merge(cs.view, cs.me, p)
  {
    if ShowsPrivate(cs, p) then cs.(view := Merge(cs.view, cs.me, p)) else cs
  }

  /** `group message` listener. */
  function ReceiveGroup(cs: ChatState, p: Payload): (r: ChatState)
    ensures r == cs.(view := r.view)
    ensures !ShowsGroup(cs, p) ==> r == cs
    ensures ShowsGroup(cs, p) ==> r.view == Merge(cs.view, cs.me, p)
  {
    if ShowsGroup(cs, p) then cs.(view := Merge(cs.view, cs.me, p)) else cs
  }

  /** Receiving a message the view already changed for is a no-op: the same
      event arriving over two paths shows once. */
  lemma ReceiveIdempotent(cs: ChatState, p: Payload)
    ensures ReceivePrivate(ReceivePrivate(cs, p), p) == ReceivePrivate(cs, p)
    ensures ReceiveGroup(ReceiveGroup(cs, p), p) == ReceiveGroup(cs, p)
  {
  }

  /** The view changes only for the selected conversation, and then grows by
      exactly the live entry, whose `isSent` marks the user's own messages. */
  lemma ReceiveTouchesOnlySelected(cs: ChatState, p: Payload)
    ensures ReceivePrivate(cs, p).view != cs.view ==>
      ShowsPrivate(cs, p) && ReceivePrivate(cs, p).view == cs.view + [LiveEntry(cs.me, p)]
    ensures ReceiveGroup(cs, p).view != cs.view ==>
      ShowsGroup(cs, p) && ReceiveGroup(cs, p).view == cs.view + [LiveEntry(cs.me, p)]
  {
  }

  // ----- Selection -----

  /** At most one conversation is selected. */
  predicate Exclusive(cs: ChatState) {
    !(cs.friend.Some? && cs.group.Some?)
  }

  /** `handleSelectFriend`: the group is cleared and the view emptied until
      the history response arrives. */
  function SelectFriend(cs: ChatState, f: UserId): (r: ChatState)
    ensures r.friend == Some(f) && r.group.None? && r.view == []
    ensures r.me == cs.me && r.draft == cs.draft
    ensures Exclusive(r)
  {
    cs.(friend := Some(f), group := None, view := [])
  }

  /** `handleSelectGroup`. */
  function SelectGroup(cs: ChatState, g: GroupId): (r: ChatState)
    ensures r.group == Some(g) && r.friend.None? && r.view == []
    ensures r.me == cs.me && r.draft == cs.draft
    ensures Exclusive(r)
  {
    cs.(group := Some(g), friend := None, view := [])
  }

  // ----- Sending -----

  /** The socket event a send emits. */
  datatype Outgoing =
    | PrivateOut(senderId: UserId, content: string, timestamp: Timestamp, receiverId: UserId)
    | GroupOut(senderId: UserId, content: string, timestamp: Timestamp, groupId: GroupId)

  /** `handleSendMessage` at clock time `now`. Nothing goes out for a blank
      draft or without a selection; otherwise exactly one event, to the friend
      when one is selected, and the draft is cleared. The untrimmed draft is
      sent and the view is left for the server's echo to update. */
  function Send(cs: ChatState, now: Timestamp): (r: (ChatState, Option<Outgoing>))
    ensures r.1.None? <==> Blank(cs.draft) || (cs.friend.None? && cs.group.None?)
    ensures r.1.None? ==> r.0 == cs
    ensures r.1.Some? ==> r.0 == cs.(draft := [])
    ensures r.1.Some? ==> r.1.value.senderId == cs.me && r.1.value.content == cs.draft && r.1.value.timestamp == now
    ensures r.1.Some? && cs.friend.Some? ==> r.1.value == PrivateOut(cs.me, cs.draft, now, cs.friend.value)
    ensures r.1.Some? && cs.friend.None? ==> r.1.value == GroupOut(cs.me, cs.draft, now, cs.group.value)
  {
    TrimEmptyIffBlank(cs.draft);
    if Trim(cs.draft) == [] || (cs.friend.None? && cs.group.None?) then (cs, None)
    else if cs.friend.Some? then (cs.(draft := []), Some(PrivateOut(cs.me, cs.draft, now, cs.friend.value)))
    else (cs.(draft := []), Some(GroupOut(cs.me, cs.draft, now, cs.group.value)))
  }

  // ----- The screen as an event machine -----

  datatype ClientEvent =
    | PickFriend(friendId: UserId)
    | PickGroup(groupId: GroupId)
    | PrivateArrived(msg: Payload)
    | GroupArrived(msg: Payload)
    | HistoryArrived(rows: seq<History.HistoryRow>)
    | Typed(text: string)
    | Submitted(now: Timestamp)

  function Apply(cs: ChatState, ev: ClientEvent): ChatState {
    match ev
    case PickFriend(f) => SelectFriend(cs, f)
    case PickGroup(g) => SelectGroup(cs, g)
    case PrivateArrived(p) => ReceivePrivate(cs, p)
    case GroupArrived(p) => ReceiveGroup(cs, p)
    case HistoryArrived(rows) => LoadHistory(cs, rows)
    case Typed(text) => cs.(draft := text)
    case Submitted(now) => Send(cs, now).0
  }

  function Run(cs: ChatState, evs: seq<ClientEvent>): ChatState
    decreases |evs|
  {
    if |evs| == 0 then cs else Run(Apply(cs, evs[0]), evs[1..])
  }

  /** Through the screen's own handlers, a friend and a group are never
      selected at the same time, and the view never holds two live copies
      of one message. */
  lemma {:induction false} RunKeepsInvariants(cs: ChatState, evs: seq<ClientEvent>)
    requires Exclusive(cs) && NoLiveDuplicates(cs.view)
    ensures Exclusive(Run(cs, evs)) && NoLiveDuplicates(Run(cs, evs).view)
    decreases |evs|
  {
    if |evs| > 0 {
      var next := Apply(cs, evs[0]);
      if evs[0].PrivateArrived? || evs[0].GroupArrived? {
        MergeKeepsNoLiveDuplicates(cs.view, cs.me, evs[0].msg);
      }
      RunKeepsInvariants(next, evs[1..]);
    }
  }
}

=== FILE: connection.dfy ===
/** The chat screen's connection status and its application-level reconnect
    decisions, as a machine driven by socket events. socket.io's own
    reconnection backoff runs underneath and is not part of this machine. */
module Connection {
  import opened Types

  /** The status indicator: 'disconnected', 'connected' or 'error'. */
  datatype Status = Disconnected | Connected | Errored

  /** The status before any socket event. */
  const InitialStatus: Status := Disconnected

  /** Socket events the screen listens to, plus a reconnect timer firing
      (with whether the socket object still exists at that moment). */
  datatype SocketEvent = Connect | ConnectError | Disconnect(reason: string) | TimerFired(socketAlive: bool)

  datatype Action = EmitJoin(userId: UserId) | ScheduleReconnect(delayMs: nat) | ConnectNow

  const ReconnectDelayMs: nat := 5000

  /** The reason socket.io gives when the client closed the socket itself. */
  const ClientClose := "io client disconnect"

  /** A disconnect the client did not ask for, or a failed connect. */
  predicate WantsReconnect(ev: SocketEvent) {
    ev.ConnectError? || (ev.Disconnect? && ev.reason != ClientClose)
  }

  /** One event: the new status and what the screen does. */
  function React(me: UserId, status: Status, ev: SocketEvent): (r: (Status, seq<Action>))
    ensures |r.1| <= 1
    ensures r.0 == Connected <==> ev.Connect? || (ev.TimerFired? && status == Connected)
    ensures ev.ConnectError? ==> r.0 == Errored
    ensures ev.Disconnect? ==> r.0 == Disconnected
    ensures ev.TimerFired? ==> r.0 == status
    ensures EmitJoin(me) in r.1 <==> ev.Connect?
    ensures ScheduleReconnect(ReconnectDelayMs) in r.1 <==> WantsReconnect(ev)
    ensures ConnectNow in r.1 <==> ev.TimerFired? && ev.socketAlive
    ensures forall a :: a in r.1 ==> a == EmitJoin(me) || a == ScheduleReconnect(ReconnectDelayMs) || a == ConnectNow
  {
    match ev
    case Connect => (Connected, [EmitJoin(me)])
    case ConnectError => (Errored, [ScheduleReconnect(ReconnectDelayMs)])
    case Disconnect(reason) =>
      (Disconnected, if reason != ClientClose then [ScheduleReconnect(ReconnectDelayMs)] else [])
    case TimerFired(alive) => (status, if alive then [ConnectNow] else [])
  }

  /** A run of events from `status`: the final status and every action in order. */
  function Drive(me: UserId, status: Status, trace: seq<SocketEvent>): (r: (Status, seq<Action>))
    decreases |trace|
  {
    if |trace| == 0 then (status, [])
    else
      var step := React(me, status, trace[0]);
      var rest := Drive(me, step.0, trace[1..]);
      (rest.0, step.1 + rest.1)
  }

  function CountJoins(actions: seq<Action>): nat {
    if |actions| == 0 then 0 else (if actions[0].EmitJoin? then 1 else 0) + CountJoins(actions[1..])
  }

  function CountReconnects(actions: seq<Action>): nat {
    if |actions| == 0 then 0 else (if actions[0].ScheduleReconnect? then 1 else 0) + CountReconnects(actions[1..])
  }

  function CountConnects(trace: seq<SocketEvent>): nat {
    if |trace| == 0 then 0 else (if trace[0].Connect? then 1 else 0) + CountConnects(trace[1..])
  }

  function CountWantsReconnect(trace: seq<SocketEvent>): nat {
    if |trace| == 0 then 0 else (if WantsReconnect(trace[0]) then 1 else 0) + CountWantsReconnect(trace[1..])
  }

  lemma {:induction false} CountsAdd(a: seq<Action>, b: seq<Action>)
    ensures CountJoins(a + b) == CountJoins(a) + CountJoins(b)
    ensures CountReconnects(a + b) == CountReconnects(a) + CountReconnects(b)
  {
    if |a| > 0 {
      assert (a + b)[1..] == a[1..] + b;
      CountsAdd(a[1..], b);
    } else {
      assert a + b == b;
    }
  }

  /** `join` is re-sent on every (re)connect, and only then: a run emits
      exactly one join per connect event. */
  lemma {:induction false} OneJoinPerConnect(me: UserId, status: Status, trace: seq<SocketEvent>)
    ensures CountJoins(Drive(me, status, trace).1) == CountConnects(trace)
    decreases |trace|
  {
    if |trace| > 0 {
      var step := React(me, status, trace[0]);
      OneJoinPerConnect(me, step.0, trace[1..]);
      CountsAdd(step.1, Drive(me, step.0, trace[1..]).1);
      assert CountJoins(step.1) == if trace[0].Connect? then 1 else 0 by {
        if |step.1| == 1 { assert step.1[1..] == []; }
      }
    }
  }

  /** One reconnect is scheduled per connect error and per disconnect the
      client did not initiate, and none otherwise. */
  lemma {:induction false} OneReconnectPerFailure(me: UserId, status: Status, trace: seq<SocketEvent>)
    ensures CountReconnects(Drive(me, status, trace).1) == CountWantsReconnect(trace)
    decreases |trace|
  {
    if |trace| > 0 {
      var step := React(me, status, trace[0]);
      OneReconnectPerFailure(me, step.0, trace[1..]);
      CountsAdd(step.1, Drive(me, step.0, trace[1..]).1);
      assert CountReconnects(step.1) == if WantsReconnect(trace[0]) then 1 else 0 by {
        if |step.1| == 1 { assert step.1[1..] == []; }
      }
    }
  }

  /** The indicator shows the last connection event: connected after a
      connect, error after a connect error, disconnected after a disconnect;
      timer firings leave it as it was. */
  lemma {:induction false} StatusFollowsLastEvent(me: UserId, status: Status, trace: seq<SocketEvent>, k: nat)
    requires k < |trace| && !trace[k].TimerFired?
    requires forall j :: k < j < |trace| ==> trace[j].TimerFired?
    ensures Drive(me, status, trace).0 == match trace[k]
      case Connect => Connected
      case ConnectError => Errored
      case _ => Disconnected
    decreases |trace|
  {
    var step := React(me, status, trace[0]);
    if k > 0 {
      StatusFollowsLastEvent(me, step.0, trace[1..], k - 1);
    } else {
      TimersKeepStatus(me, step.0, trace[1..]);
    }
  }

  lemma {:induction false} TimersKeepStatus(me: UserId, status: Status, trace: seq<SocketEvent>)
    requires forall j :: 0 <= j < |trace| ==> trace[j].TimerFired?
    ensures Drive(me, status, trace).0 == status
    decreases |trace|
  {
    if |trace| > 0 {
      TimersKeepStatus(me, status, trace[1..]);
    }
  }

  /** Starting from a status other than connected, the indicator reads
      connected only if the run holds a connect event. */
  lemma {:induction false} ConnectedOnlyAfterConnect(me: UserId, status: Status, trace: seq<SocketEvent>)
    requires status != Connected
    ensures Drive(me, status, trace).0 == Connected ==> CountConnects(trace) > 0
    decreases |trace|
  {
    if |trace| > 0 && !trace[0].Connect? {
      ConnectedOnlyAfterConnect(me, React(me, status, trace[0]).0, trace[1..]);
    }
  }

  /** The screen starts disconnected, so it never shows connected before the
      first connect event. */
  lemma InitiallyNotConnected(me: UserId, trace: seq<SocketEvent>)
    ensures Drive(me, InitialStatus, trace).0 == Connected ==> CountConnects(trace) > 0
  {
    ConnectedOnlyAfterConnect(me, InitialStatus, trace);
  }
}

=== FILE: dispatch.dfy ===
/** The socket handlers of the server: `join`, `private message`,
    `group message` and `disconnect`. Each inbound event is one atomic step.
    Query k of a handler fails when k is in `fails`; a failing query throws,
    and the handler's catch block reports to the originating socket. */
module Dispatch {
  import opened Types
  import opened Store
  import opened Events
  import opened Rooms
  import History

  /** Query numbers, in the order the message handlers issue them. */
  const InsertQuery: nat := 0
  const LookupQuery: nat := 1
  const MembersQuery: nat := 2

  const PrivateFailure := "Failed to send message"
  const GroupFailure := "Failed to send group message"

  /** `join`: the connection enters the room named after the id it supplies
      (whatever that id is; nothing ties it to the caller) and only that
      connection is told `connected`. */
  function OnJoin(reg: Registry, conn: ConnId, userId: UserId): (r: (Registry, seq<Emission>))
    ensures conn in Connections(r.0, userId)
    ensures forall v :: Connections(r.0, v) == if v == userId then Connections(reg, v) + {conn} else Connections(reg, v)
    ensures r.1 == [Emission(Origin, Connected)]
  {
    (Join(reg, conn, userId), [Emission(Origin, Connected)])
  }

  /** `disconnect`: the handler only logs; socket.io itself removes the
      connection from every room. The reason plays no part. */
  function OnDisconnect(reg: Registry, conn: ConnId, reason: string): (r: Registry)
    ensures forall v :: conn !in Connections(r, v)
    ensures forall v, c :: c != conn ==> (c in Connections(r, v) <==> c in Connections(reg, v))
  {
    Leave(reg, conn)
  }

  /** The insert fails on a database fault or a broken reference: `sender_id`
      and `receiver_id`/`group_id` REFERENCE existing rows. */
  predicate InsertFails(db: Db, senderId: UserId, to: Addressee, fails: set<nat>) {
    || InsertQuery in fails
    || !HasUser(db.users, senderId)
    || (to.Direct? && !HasUser(db.users, to.receiver))
    || (to.ToGroup? && !HasGroup(db.groups, to.group))
  }

  /** `user.username` throws when the lookup fails or finds no row. */
  predicate LookupFails(db: Db, senderId: UserId, fails: set<nat>) {
    LookupQuery in fails || !HasUser(db.users, senderId)
  }

  /** The payload built after the insert, for a lookup that succeeded. */
  function PayloadAfterInsert(db: Db, senderId: UserId, to: Addressee, content: string, timestamp: Timestamp): Payload
    requires HasUser(db.users, senderId)
  {
    Payload(db.nextMessageId, senderId, to, content, timestamp, UsernameOf(db.users, senderId).value)
  }

  /** `private message`: insert, read the sender's name, then emit the same
      payload to the sender's room and to the receiver's room. */
  function OnPrivateMessage(db: Db, senderId: UserId, receiverId: UserId, content: string, timestamp: Timestamp, fails: set<nat>): (r: Step)
    // a failed insert stores nothing and reports to the origin only
    ensures InsertFails(db, senderId, Direct(receiverId), fails) ==>
      r == Step(db, [Emission(Origin, Error(PrivateFailure))])
    // otherwise the message is stored with the next id, whatever happens next
    ensures !InsertFails(db, senderId, Direct(receiverId), fails) ==>
      r.db == AppendMessage(db, senderId, Direct(receiverId), content, timestamp)
    // a failed lookup after the insert: stored but undelivered
    ensures !InsertFails(db, senderId, Direct(receiverId), fails) && LookupFails(db, senderId, fails) ==>
      r.out == [Emission(Origin, Error(PrivateFailure))]
    // success: two identical payloads, sender's room first
    ensures !InsertFails(db, senderId, Direct(receiverId), fails) && !LookupFails(db, senderId, fails) ==>
      && |r.out| == 2
      && r.out[0].event.PrivateMessage?
      && r.out[0] == Emission(Room(senderId), PrivateMessage(r.out[0].event.msg))
      && r.out[1] == Emission(Room(receiverId), PrivateMessage(r.out[0].event.msg))
      && r.out[0].event.msg.id == db.nextMessageId
      && r.out[0].event.msg.senderId == senderId
      && r.out[0].event.msg.to == Direct(receiverId)
      && r.out[0].event.msg.content == content
      && r.out[0].event.msg.timestamp == timestamp
      && User(senderId, r.out[0].event.msg.senderUsername) in db.users
    // fan-out only of what is stored
    ensures forall i :: 0 <= i < |r.out| && r.out[i].event.PrivateMessage? ==> Persisted(r.db, r.out[i].event.msg)
  {
    var to := Direct(receiverId);
    if InsertFails(db, senderId, to, fails) then
      Step(db, [Emission(Origin, Error(PrivateFailure))])
    else
      var db1 := AppendMessage(db, senderId, to, content, timestamp);
      if LookupFails(db1, senderId, fails) then
        Step(db1, [Emission(Origin, Error(PrivateFailure))])
      else
        var p := PayloadAfterInsert(db, senderId, to, content, timestamp);
        assert RowOf(p) == db1.messages[|db.messages|];
        Step(db1, [Emission(Room(senderId), PrivateMessage(p)), Emission(Room(receiverId), PrivateMessage(p))])
  }

  /** `group message`: insert, read the sender's name, read the membership
      rows of the group, then emit one copy per row. */
  function OnGroupMessage(db: Db, senderId: UserId, groupId: GroupId, content: string, timestamp: Timestamp, fails: set<nat>): (r: Step)
    ensures InsertFails(db, senderId, ToGroup(groupId), fails) ==>
      r == Step(db, [Emission(Origin, Error(GroupFailure))])
    ensures !InsertFails(db, senderId, ToGroup(groupId), fails) ==>
      r.db == AppendMessage(db, senderId, ToGroup(groupId), content, timestamp)
    ensures !InsertFails(db, senderId, ToGroup(groupId), fails) && (LookupFails(db, senderId, fails) || MembersQuery in fails) ==>
      r.out == [Emission(Origin, Error(GroupFailure))]
    // success: one copy per membership row read after the insert, in row order
    ensures !InsertFails(db, senderId, ToGroup(groupId), fails) && !LookupFails(db, senderId, fails) && MembersQuery !in fails ==>
      && |r.out| == |MembersOf(r.db.members, groupId)|
      && (forall i :: 0 <= i < |r.out| ==> r.out[i].target == Room(MembersOf(r.db.members, groupId)[i]))
      && (forall i :: 0 <= i < |r.out| ==> r.out[i].event == GroupMessage(PayloadAfterInsert(db, senderId, ToGroup(groupId), content, timestamp)))
    ensures forall i :: 0 <= i < |r.out| && r.out[i].event.GroupMessage? ==> Persisted(r.db, r.out[i].event.msg)
  {
    var to := ToGroup(groupId);
    if InsertFails(db, senderId, to, fails) then
      Step(db, [Emission(Origin, Error(GroupFailure))])
    else
      var db1 := AppendMessage(db, senderId, to, content, timestamp);
      if LookupFails(db1, senderId, fails) || MembersQuery in fails then
        Step(db1, [Emission(Origin, Error(GroupFailure))])
      else
        var p := PayloadAfterInsert(db, senderId, to, content, timestamp);
        assert RowOf(p) == db1.messages[|db.messages|];
        var ms := MembersOf(db1.members, groupId);
        Step(db1, seq(|ms|, i requires 0 <= i < |ms| => Emission(Room(ms[i]), GroupMessage(p))))
  }

  // ----- Properties of the message handlers -----

  /** Whatever happens, an error goes only to the originating socket, and alone. */
  lemma ErrorsOnlyToOrigin(db: Db, senderId: UserId, to: Addressee, content: string, timestamp: Timestamp, fails: set<nat>)
    ensures var r := if to.Direct? then OnPrivateMessage(db, senderId, to.receiver, content, timestamp, fails)
                     else OnGroupMessage(db, senderId, to.group, content, timestamp, fails);
      forall i :: 0 <= i < |r.out| && (r.out[i].event.Error? || r.out[i].target == Origin) ==>
        |r.out| == 1 && r.out[0].target == Origin && r.out[0].event.Error?
  {
  }

  /** The message handlers keep the store invariant. */
  lemma MessageHandlersPreserveValid(db: Db, senderId: UserId, to: Addressee, content: string, timestamp: Timestamp, fails: set<nat>)
    ensures Valid(db) && to.Direct? ==> Valid(OnPrivateMessage(db, senderId, to.receiver, content, timestamp, fails).db)
    ensures Valid(db) && to.ToGroup? ==> Valid(OnGroupMessage(db, senderId, to.group, content, timestamp, fails).db)
  {
  }

  /** Snapshot fan-out: a user's room gets a copy of a group message exactly
      when that user had a membership row at dispatch time. In particular the
      sender gets a copy only as a member, and a user who joins later gets none. */
  lemma GroupFanoutIsMembershipSnapshot(db: Db, senderId: UserId, groupId: GroupId, content: string, timestamp: Timestamp, fails: set<nat>, u: UserId)
    requires !InsertFails(db, senderId, ToGroup(groupId), fails) && !LookupFails(db, senderId, fails) && MembersQuery !in fails
    ensures Addressed(OnGroupMessage(db, senderId, groupId, content, timestamp, fails).out, Room(u)) <==> Membership(groupId, u) in db.members
  {
  }

  /** With memberships unique, each member's room is addressed by exactly one emission. */
  lemma GroupFanoutOncePerMember(db: Db, senderId: UserId, groupId: GroupId, content: string, timestamp: Timestamp, fails: set<nat>, u: UserId)
    requires MembershipsUnique(db.members)
    requires !InsertFails(db, senderId, ToGroup(groupId), fails) && !LookupFails(db, senderId, fails) && MembersQuery !in fails
    requires Membership(groupId, u) in db.members
    ensures var out := OnGroupMessage(db, senderId, groupId, content, timestamp, fails).out;
      exists i :: 0 <= i < |out| && out[i].target == Room(u) &&
        forall j :: 0 <= j < |out| && out[j].target == Room(u) ==> j == i
  {
    var out := OnGroupMessage(db, senderId, groupId, content, timestamp, fails).out;
    var ms := MembersOf(db.members, groupId);
    var k :| 0 <= k < |db.members| && db.members[k] == Membership(groupId, u);
    MultisetOfUniqueIsOne(db.members, k);
    var i := OnlyIndex(ms, u);
    assert out[i].target == Room(u);
  }

  /** A value occurring once in a sequence sits at exactly one index. */
  lemma {:induction false} OnlyIndex<T>(s: seq<T>, x: T) returns (i: nat)
    requires multiset(s)[x] == 1
    ensures i < |s| && s[i] == x
    ensures forall j :: 0 <= j < |s| && s[j] == x ==> j == i
  {
    assert s == [s[0]] + s[1..];
    if s[0] == x {
      i := 0;
      assert multiset(s[1..])[x] == 0;
      forall j | 1 <= j < |s| ensures s[j] != x {
        assert s[j] == s[1..][j - 1];
      }
    } else {
      var k := OnlyIndex(s[1..], x);
      i := k + 1;
    }
  }

  lemma MultisetOfUniqueIsOne<T>(s: seq<T>, k: nat)
    requires k < |s|
    requires forall i, j :: 0 <= i < j < |s| ==> s[i] != s[j]
    ensures multiset(s)[s[k]] == 1
  {
    if k == 0 {
      assert s == [s[0]] + s[1..];
      assert s[0] !in s[1..];
    } else {
      assert s == [s[0]] + s[1..];
      MultisetOfUniqueIsOne(s[1..], k - 1);
    }
  }

  /** A delivered direct message is in the history both participants fetch. */
  lemma DeliveredMessageInHistory(db: Db, senderId: UserId, receiverId: UserId, content: string, timestamp: Timestamp, fails: set<nat>)
    requires Valid(db)
    requires !InsertFails(db, senderId, Direct(receiverId), fails) && !LookupFails(db, senderId, fails)
    ensures var r := OnPrivateMessage(db, senderId, receiverId, content, timestamp, fails);
      && RowOf(r.out[0].event.msg) in History.Msgs(History.DirectHistory(r.db, senderId, receiverId))
      && RowOf(r.out[0].event.msg) in History.Msgs(History.DirectHistory(r.db, receiverId, senderId))
  {
    var r := OnPrivateMessage(db, senderId, receiverId, content, timestamp, fails);
    var m := RowOf(r.out[0].event.msg);
    assert m == r.db.messages[|db.messages|];
    assert HasUser(r.db.users, m.sender);
    History.StoredIsInHistory(r.db, senderId, receiverId, m);
    History.StoredIsInHistory(r.db, receiverId, senderId, m);
  }

  /** The server persists whatever content arrives, blank included: the
      non-empty check lives only in the client. */
  lemma BlankContentIsStored(db: Db, senderId: UserId, receiverId: UserId, timestamp: Timestamp)
    requires !InsertFails(db, senderId, Direct(receiverId), {})
    ensures OnPrivateMessage(db, senderId, receiverId, "", timestamp, {}).db.messages
      == db.messages + [Message(db.nextMessageId, senderId, Direct(receiverId), "", timestamp)]
  {
  }

  /** Any connection may join any user's room and from then on receives
      that user's room events. */
  lemma JoinIsUnauthenticated(reg: Registry, conn: ConnId, u: UserId, origin: ConnId, e: Event)
    ensures (conn, e) in Deliver(OnJoin(reg, conn, u).0, origin, [Emission(Room(u), e)])
  {
  }
}

=== FILE: events.dfy ===
/** What the server sends: socket events addressed to a user's room or to the
    originating connection, and the replies of the HTTP handlers. */
module Events {
  import opened Types
  import opened Store

  /** The message object fanned out after persistence: the sender's fields,
      the username read back from `users`, and the id returned by the insert. */
  datatype Payload = Payload(
    id: MessageId,
    senderId: UserId,
    to: Addressee,
    content: string,
    timestamp: Timestamp,
    senderUsername: string)

  /** One constructor per socket.io event name the server emits: 'connected',
      'private message', 'group message', 'friend_request', 'friend_accepted'
      and 'error'. */
  datatype Event =
    | Connected
    | PrivateMessage(msg: Payload)
    | GroupMessage(msg: Payload)
    | FriendRequest(from: UserId, username: string)
    | FriendAccepted(friendId: UserId, username: string)
    | Error(text: string)

  /** `io.to(String(user))` or `socket.emit` on the connection that sent the event. */
  datatype Target = Room(user: UserId) | Origin

  datatype Emission = Emission(target: Target, event: Event)

  /** An HTTP reply: success, or an error status with its message. */
  datatype Reply = Ok(text: string) | Created(group: Group) | Fail(status: nat, error: string)

  /** Result of a socket handler. */
  datatype Step = Step(db: Db, out: seq<Emission>)

  /** Result of an HTTP handler. */
  datatype Outcome = Outcome(db: Db, reply: Reply, out: seq<Emission>)

  /** The stored row a fanned-out payload stands for. */
  function RowOf(p: Payload): Message {
    Message(p.id, p.senderId, p.to, p.content, p.timestamp)
  }

  ghost predicate Persisted(db: Db, p: Payload) {
    RowOf(p) in db.messages
  }

  /** Every emission addressed to a room. */
  ghost predicate OnlyRooms(out: seq<Emission>) {
    forall i :: 0 <= i < |out| ==> out[i].target.Room?
  }

  /** Some emission reaches the given target. */
  predicate Addressed(out: seq<Emission>, t: Target) {
    exists i :: 0 <= i < |out| && out[i].target == t
  }
}

=== FILE: friends.dfy ===
/** Friend relationships: the request and accept handlers with the events
    they push, and the two read queries (accepted friends, pending requests). */
module Friends {
  import opened Types
  import opened Seqs
  import opened Store
  import opened Events

  /** Query numbers of the request handler. */
  const FindFriendQuery: nat := 0
  const ExistingQuery: nat := 1
  const InsertEdgeQuery: nat := 2

  /** The single UPDATE of the accept handler. */
  const UpdateQuery: nat := 0

  const ServerError := "Internal server error"

  /** Some edge joins the two users, in either direction. */
  predicate EdgeBetween(edges: seq<FriendEdge>, a: UserId, b: UserId) {
    exists i :: 0 <= i < |edges| && Links(edges[i], a, b)
  }

  /** Everything a request needs to be stored. */
  predicate RequestAccepted(db: Db, userId: UserId, friendUsername: string, fails: set<nat>) {
    && userId != 0 && friendUsername != ""
    && FindFriendQuery !in fails && ExistingQuery !in fails && InsertEdgeQuery !in fails
    && UserIdByName(db.users, friendUsername).Some?
    && !EdgeBetween(db.friends, userId, UserIdByName(db.users, friendUsername).value)
    && HasUser(db.users, userId)
  }

  /** `POST /api/friends/request`. The requester's name in the pushed event
      comes from the caller's token, passed in as `requesterName`. */
  function OnFriendRequest(db: Db, userId: UserId, friendUsername: string, requesterName: string, fails: set<nat>): (r: Outcome)
    ensures r.reply.Ok? <==> RequestAccepted(db, userId, friendUsername, fails)
    ensures !r.reply.Ok? ==> r.db == db && r.out == []
    ensures r.reply.Ok? ==>
      var friendId := UserIdByName(db.users, friendUsername).value;
      && r.db == db.(friends := db.friends + [FriendEdge(userId, friendId, Pending)])
      && r.out == [Emission(Room(friendId), FriendRequest(userId, requesterName))]
    // the existing-edge check looks both ways and reports the first edge's status
    ensures r.reply == Fail(400, "Already friends") || r.reply == Fail(400, "Friend request already pending") <==>
      && userId != 0 && friendUsername != ""
      && FindFriendQuery !in fails && ExistingQuery !in fails
      && UserIdByName(db.users, friendUsername).Some?
      && EdgeBetween(db.friends, userId, UserIdByName(db.users, friendUsername).value)
  {
    if userId == 0 || friendUsername == "" then
      Outcome(db, Fail(400, "User ID and friend username are required"), [])
    else if FindFriendQuery in fails then
      Outcome(db, Fail(500, ServerError), [])
    else match UserIdByName(db.users, friendUsername)
      case None => Outcome(db, Fail(400, "User not found"), [])
      case Some(friendId) =>
        if ExistingQuery in fails then
          Outcome(db, Fail(500, ServerError), [])
        else match FindFirst(db.friends, (e: FriendEdge) => Links(e, userId, friendId))
          case Some(i) =>
            if db.friends[i].status == Accepted then Outcome(db, Fail(400, "Already friends"), [])
            else Outcome(db, Fail(400, "Friend request already pending"), [])
          case None =>
            if InsertEdgeQuery in fails then
              Outcome(db, Fail(500, ServerError), [])
            else if !HasUser(db.users, userId) then
              // the REFERENCES check on user_id (error 23503)
              Outcome(db, Fail(400, "Invalid user ID"), [])
            else
              Outcome(db.(friends := db.friends + [FriendEdge(userId, friendId, Pending)]),
                      Ok("Friend request sent successfully"),
                      [Emission(Room(friendId), FriendRequest(userId, requesterName))])
  }

  /** The edge `from` -> `to` the accept handler's UPDATE matches. */
  predicate IsRequest(e: FriendEdge, from: UserId, to: UserId) {
    e.from == from && e.to == to && e.status == Pending
  }

  /** `UPDATE friends SET status = 'accepted' WHERE user_id = $1 AND friend_id = $2 AND status = 'pending'`. */
  function AcceptRows(edges: seq<FriendEdge>, from: UserId, to: UserId): (r: seq<FriendEdge>)
    ensures |r| == |edges|
    ensures forall i :: 0 <= i < |r| ==> r[i].from == edges[i].from && r[i].to == edges[i].to
    ensures forall i :: 0 <= i < |r| ==> (r[i].status == Accepted <==> edges[i].status == Accepted || IsRequest(edges[i], from, to))
    ensures !HasRequest(edges, from, to) ==> r == edges
  {
    seq(|edges|, i requires 0 <= i < |edges| => if IsRequest(edges[i], from, to) then edges[i].(status := Accepted) else edges[i])
  }

  predicate HasRequest(edges: seq<FriendEdge>, from: UserId, to: UserId) {
    exists i :: 0 <= i < |edges| && IsRequest(edges[i], from, to)
  }

  /** `POST /api/friends/accept`: `userId` accepts the request `friendId` sent.
      Both pushed events carry the name from the caller's token (`accepterName`). */
  function OnAccept(db: Db, userId: UserId, friendId: UserId, accepterName: string, fails: set<nat>): (r: Outcome)
    ensures r.reply.Ok? <==> UpdateQuery !in fails && HasRequest(db.friends, friendId, userId)
    ensures !r.reply.Ok? ==> r.db == db && r.out == []
    ensures UpdateQuery !in fails && !HasRequest(db.friends, friendId, userId) ==> r.reply == Fail(400, "No pending friend request found")
    ensures r.reply.Ok? ==>
      && r.db == db.(friends := r.db.friends)
      && r.out == [Emission(Room(userId), FriendAccepted(friendId, accepterName)),
                   Emission(Room(friendId), FriendAccepted(userId, accepterName))]
    // only the pending friendId -> userId edge changes, and only to accepted
    ensures |r.db.friends| == |db.friends|
    ensures forall i :: 0 <= i < |db.friends| ==>
      r.db.friends[i] == if r.reply.Ok? && IsRequest(db.friends[i], friendId, userId) then db.friends[i].(status := Accepted) else db.friends[i]
  {
    if UpdateQuery in fails then
      Outcome(db, Fail(500, "Error accepting friend request"), [])
    else if !HasRequest(db.friends, friendId, userId) then
      Outcome(db, Fail(400, "No pending friend request found"), [])
    else
      Outcome(db.(friends := AcceptRows(db.friends, friendId, userId)),
              Ok("Friend request accepted"),
              [Emission(Room(userId), FriendAccepted(friendId, accepterName)),
               Emission(Room(friendId), FriendAccepted(userId, accepterName))])
  }

  // ----- Properties -----

  /** Edges only ever advance: none disappears, none changes its ends, and an
      accepted edge stays accepted. */
  ghost predicate EdgesAdvance(before: seq<FriendEdge>, after: seq<FriendEdge>) {
    && |before| <= |after|
    && forall i :: 0 <= i < |before| ==>
         && after[i].from == before[i].from && after[i].to == before[i].to
         && (before[i].status == Accepted ==> after[i].status == Accepted)
  }

  lemma RequestAndAcceptOnlyAdvance(db: Db, userId: UserId, friendId: UserId, name: string, text: string, fails: set<nat>)
    ensures EdgesAdvance(db.friends, OnFriendRequest(db, userId, name, text, fails).db.friends)
    ensures EdgesAdvance(db.friends, OnAccept(db, userId, friendId, text, fails).db.friends)
  {
  }

  /** A new edge is always pending. */
  lemma NewEdgesArePending(db: Db, userId: UserId, name: string, text: string, fails: set<nat>)
    ensures var r := OnFriendRequest(db, userId, name, text, fails);
      forall i :: |db.friends| <= i < |r.db.friends| ==> r.db.friends[i].status == Pending
  {
  }

  /** Under the invariant a successful accept changes exactly one edge. */
  lemma AcceptChangesOneEdge(db: Db, userId: UserId, friendId: UserId, text: string, fails: set<nat>)
    requires Valid(db)
    requires OnAccept(db, userId, friendId, text, fails).reply.Ok?
    ensures var r := OnAccept(db, userId, friendId, text, fails);
      exists k :: 0 <= k < |db.friends| && IsRequest(db.friends[k], friendId, userId)
        && r.db.friends == db.friends[k := db.friends[k].(status := Accepted)]
  {
  }

  lemma FriendRequestPreservesValid(db: Db, userId: UserId, friendUsername: string, text: string, fails: set<nat>)
    requires Valid(db)
    ensures Valid(OnFriendRequest(db, userId, friendUsername, text, fails).db)
  {
    if RequestAccepted(db, userId, friendUsername, fails) {
      var friendId := UserIdByName(db.users, friendUsername).value;
      var k :| 0 <= k < |db.users| && db.users[k] == User(friendId, friendUsername);
      assert HasUser(db.users, friendId);
      AddEdgePreservesValid(db, FriendEdge(userId, friendId, Pending));
    }
  }

  lemma AcceptPreservesValid(db: Db, userId: UserId, friendId: UserId, text: string, fails: set<nat>)
    requires Valid(db)
    ensures Valid(OnAccept(db, userId, friendId, text, fails).db)
  {
  }

  /** After a request is stored, repeating it (either way round) is refused. */
  lemma SecondRequestRefused(db: Db, userId: UserId, friendUsername: string, otherName: string, text: string, fails: set<nat>)
    requires Valid(db)
    requires OnFriendRequest(db, userId, friendUsername, text, fails).reply.Ok?
    requires HasUser(db.users, userId) && UsernameOf(db.users, userId) == Some(otherName)
    ensures var db1 := OnFriendRequest(db, userId, friendUsername, text, fails).db;
      && OnFriendRequest(db1, userId, friendUsername, text, fails).reply == Fail(400, "Friend request already pending")
      && OnFriendRequest(db1, UserIdByName(db.users, friendUsername).value, otherName, text, fails).reply.Fail?
      && (otherName != "" ==>
            OnFriendRequest(db1, UserIdByName(db.users, friendUsername).value, otherName, text, fails).reply
              == Fail(400, "Friend request already pending"))
  {
    RepeatFindsPending(db, userId, friendUsername, text, fails);
    ReverseFindsEdge(db, userId, friendUsername, otherName, text, fails);
    if otherName != "" {
      ReverseFindsPending(db, userId, friendUsername, otherName, text, fails);
    }
  }

  /** The reverse request resolves `otherName` to the requester and finds the new pending edge first. */
  lemma ReverseFindsPending(db: Db, userId: UserId, friendUsername: string, otherName: string, text: string, fails: set<nat>)
    requires Valid(db)
    requires OnFriendRequest(db, userId, friendUsername, text, fails).reply.Ok?
    requires User(userId, otherName) in db.users && otherName != ""
    ensures var db1 := OnFriendRequest(db, userId, friendUsername, text, fails).db;
      OnFriendRequest(db1, UserIdByName(db.users, friendUsername).value, otherName, text, fails).reply
        == Fail(400, "Friend request already pending")
  {
    var db1 := OnFriendRequest(db, userId, friendUsername, text, fails).db;
    var friendId := UserIdByName(db.users, friendUsername).value;
    var e := FriendEdge(userId, friendId, Pending);
    assert db1 == db.(friends := db.friends + [e]);
    var f :| 0 <= f < |db.users| && db.users[f] == User(friendId, friendUsername);
    assert friendId != 0;
    NameResolvesBack(db.users, userId, otherName);
    NewEdgeFoundFirst(db.friends, e, friendId, userId);
  }

  /** Under unique users, a user's own name looks up that user. */
  lemma NameResolvesBack(users: seq<User>, id: UserId, name: string)
    requires UsersUnique(users) && User(id, name) in users
    ensures UserIdByName(users, name) == Some(id)
  {
    var back := UserIdByName(users, name);
    assert back.Some?;
    var m :| 0 <= m < |users| && users[m] == User(back.value, name);
  }

  /** An edge appended where no earlier edge links the pair is the first match. */
  lemma NewEdgeFoundFirst(edges: seq<FriendEdge>, e: FriendEdge, a: UserId, b: UserId)
    requires Links(e, a, b)
    requires !EdgeBetween(edges, a, b)
    ensures FindFirst(edges + [e], (g: FriendEdge) => Links(g, a, b)) == Some(|edges|)
  {
    assert (edges + [e])[|edges|] == e;
  }

  lemma RepeatFindsPending(db: Db, userId: UserId, friendUsername: string, text: string, fails: set<nat>)
    requires Valid(db)
    requires OnFriendRequest(db, userId, friendUsername, text, fails).reply.Ok?
    ensures var db1 := OnFriendRequest(db, userId, friendUsername, text, fails).db;
      OnFriendRequest(db1, userId, friendUsername, text, fails).reply == Fail(400, "Friend request already pending")
  {
    var db1 := OnFriendRequest(db, userId, friendUsername, text, fails).db;
    var friendId := UserIdByName(db.users, friendUsername).value;
    var e := FriendEdge(userId, friendId, Pending);
    assert db1 == db.(friends := db.friends + [e]);
    assert db1.friends[|db.friends|] == e;
    var first := FindFirst(db1.friends, (f: FriendEdge) => Links(f, userId, friendId));
    assert first == Some(|db.friends|);
  }

  lemma ReverseFindsEdge(db: Db, userId: UserId, friendUsername: string, otherName: string, text: string, fails: set<nat>)
    requires Valid(db)
    requires OnFriendRequest(db, userId, friendUsername, text, fails).reply.Ok?
    requires User(userId, otherName) in db.users
    ensures var db1 := OnFriendRequest(db, userId, friendUsername, text, fails).db;
      !RequestAccepted(db1, UserIdByName(db.users, friendUsername).value, otherName, fails)
  {
    var db1 := OnFriendRequest(db, userId, friendUsername, text, fails).db;
    var friendId := UserIdByName(db.users, friendUsername).value;
    var e := FriendEdge(userId, friendId, Pending);
    assert db1 == db.(friends := db.friends + [e]);
    var back := UserIdByName(db1.users, otherName);
    if back.Some? {
      var k :| 0 <= k < |db.users| && db.users[k] == User(userId, otherName);
      var m :| 0 <= m < |db.users| && db.users[m] == User(back.value, otherName);
      assert back.value == userId;
      assert Links(db1.friends[|db.friends|], friendId, userId);
    }
  }

  // ----- Queries -----

  /** Some row of `r` has id `v`. */
  predicate Lists(r: seq<User>, v: UserId) {
    exists k :: 0 <= k < |r| && r[k].id == v
  }

  /** The `id` column of a result. */
  function IdsOf(r: seq<User>): (ids: seq<UserId>)
    ensures |ids| == |r|
    ensures forall k :: 0 <= k < |r| ==> ids[k] == r[k].id
  {
    if |r| == 0 then [] else [r[0].id] + IdsOf(r[1..])
  }

  /** `JOIN users u ON f.user_id = u.id` (or `friend_id`): one row for each id
      that has a user row, in order. */
  function UsersFor(users: seq<User>, ids: seq<UserId>): (r: seq<User>)
    ensures forall k :: 0 <= k < |r| ==> r[k] in users
    ensures forall v :: Lists(r, v) <==> v in ids && HasUser(users, v)
  {
    if |ids| == 0 then []
    else
      var rest := UsersFor(users, ids[1..]);
      assert ids == [ids[0]] + ids[1..];
      match UsernameOf(users, ids[0])
      case None => rest
      case Some(name) =>
        var r := [User(ids[0], name)] + rest;
        forall v
          ensures Lists(r, v) <==> Lists(rest, v) || v == ids[0]
        {
          if Lists(rest, v) {
            var k :| 0 <= k < |rest| && rest[k].id == v;
            assert r[k + 1] == rest[k];
          }
          if Lists(r, v) && v != ids[0] {
            var k :| 0 <= k < |r| && r[k].id == v;
            assert rest[k - 1] == r[k];
          }
          assert r[0].id == ids[0];
        }
        r
  }

  /** The join yields one row per listed id that has a user row: an id listed
      `n` times appears `n` times, an unknown id not at all. */
  lemma {:induction false} UsersForCounts(users: seq<User>, ids: seq<UserId>, v: UserId)
    ensures multiset(IdsOf(UsersFor(users, ids)))[v] == if HasUser(users, v) then multiset(ids)[v] else 0
  {
    if |ids| > 0 {
      UsersForCounts(users, ids[1..], v);
      assert ids == [ids[0]] + ids[1..];
      assert multiset(ids)[v] == (if ids[0] == v then 1 else 0) + multiset(ids[1..])[v];
      var rest := UsersFor(users, ids[1..]);
      match UsernameOf(users, ids[0])
      case None =>
        assert UsersFor(users, ids) == rest;
        assert !HasUser(users, ids[0]);
      case Some(name) =>
        var r := [User(ids[0], name)] + rest;
        assert UsersFor(users, ids) == r;
        assert IdsOf(r) == [ids[0]] + IdsOf(rest);
        assert HasUser(users, ids[0]);
    }
  }

  /** For each edge `pick` keeps, the end `end` names; stored order. */
  function Ends(edges: seq<FriendEdge>, pick: FriendEdge -> bool, end: FriendEdge -> UserId): (r: seq<UserId>)
    ensures forall v :: v in r <==> exists i :: 0 <= i < |edges| && pick(edges[i]) && end(edges[i]) == v
  {
    if |edges| == 0 then []
    else
      var rest := Ends(edges[1..], pick, end);
      assert forall i :: 1 <= i < |edges| ==> edges[1..][i - 1] == edges[i];
      (if pick(edges[0]) then [end(edges[0])] else []) + rest
  }

  /** Like `Ends`, but the newest (last stored) edge first. */
  function EndsNewestFirst(edges: seq<FriendEdge>, pick: FriendEdge -> bool, end: FriendEdge -> UserId): (r: seq<UserId>)
    ensures forall v :: v in r <==> exists i :: 0 <= i < |edges| && pick(edges[i]) && end(edges[i]) == v
  {
    if |edges| == 0 then []
    else
      var last := edges[|edges| - 1];
      var rest := EndsNewestFirst(edges[..|edges| - 1], pick, end);
      (if pick(last) then [end(last)] else []) + rest
  }

  predicate IsFriendship(e: FriendEdge, u: UserId) {
    e.status == Accepted && (e.from == u || e.to == u)
  }

  lemma OtherEndOfFriendship(e: FriendEdge, u: UserId, v: UserId)
    ensures IsFriendship(e, u) && Other(e, u) == v <==> e.status == Accepted && Links(e, u, v)
  {
  }

  /** `GET /api/friends/:userId`: the accepted edges touching `u`, either way round. */
  function FriendsOf(db: Db, u: UserId): (r: seq<User>)
    ensures forall k :: 0 <= k < |r| ==> r[k] in db.users
    ensures forall v :: Lists(r, v) <==>
      HasUser(db.users, v) && exists i :: 0 <= i < |db.friends| && db.friends[i].status == Accepted && Links(db.friends[i], u, v)
  {
    var ids := Ends(db.friends, (e: FriendEdge) => IsFriendship(e, u), (e: FriendEdge) => Other(e, u));
    forall e: FriendEdge, v: UserId { OtherEndOfFriendship(e, u, v); }
    UsersFor(db.users, ids)
  }

  /** `GET /api/friends/pending/:userId`: who asked `u`, newest request first
      (rows are stored in creation order, so `created_at DESC` reads them backwards). */
  function PendingFor(db: Db, u: UserId): (r: seq<User>)
    ensures forall k :: 0 <= k < |r| ==> r[k] in db.users
    ensures forall v :: Lists(r, v) <==> HasUser(db.users, v) && HasRequest(db.friends, v, u)
  {
    var ids := EndsNewestFirst(db.friends, (e: FriendEdge) => e.to == u && e.status == Pending, (e: FriendEdge) => e.from);
    UsersFor(db.users, ids)
  }
}

=== FILE: groups.dfy ===
/** Group lifecycle: creating a group under a join code and joining by code. */
module Groups {
  import opened Types
  import opened Store
  import opened Events

  /** Query numbers of the create handler. */
  const InsertGroupQuery: nat := 0
  const InsertCreatorQuery: nat := 1

  /** Query numbers of the join handler. */
  const FindGroupQuery: nat := 0
  const FindMemberQuery: nat := 1
  const InsertMemberQuery: nat := 2

  predicate CodeTaken(groups: seq<Group>, code: string) {
    exists i :: 0 <= i < |groups| && groups[i].code == code
  }

  /** `POST /api/groups`. The join code is random in the server; here it is
      an input. The group row and the creator's membership row are two
      separate inserts, so a fault on the second leaves a group without members. */
  function OnCreateGroup(db: Db, name: string, code: string, createdBy: UserId, fails: set<nat>): (r: Outcome)
    ensures r.out == []
    // the group insert fails: fault, code clash (UNIQUE, checked first) or unknown creator
    ensures InsertGroupQuery in fails || CodeTaken(db.groups, code) || !HasUser(db.users, createdBy) ==>
      r.db == db && r.reply.Fail?
    ensures InsertGroupQuery !in fails && CodeTaken(db.groups, code) ==> r.reply == Fail(400, "Group name already exists")
    ensures !(InsertGroupQuery in fails || CodeTaken(db.groups, code) || !HasUser(db.users, createdBy)) ==>
      var g := Group(db.nextGroupId, name, code, createdBy);
      && r.db.groups == db.groups + [g]
      && r.db.nextGroupId == db.nextGroupId + 1
      && r.db.members == db.members + (if InsertCreatorQuery in fails then [] else [Membership(g.id, createdBy)])
      && r.db == db.(groups := r.db.groups, nextGroupId := r.db.nextGroupId, members := r.db.members)
      && r.reply == (if InsertCreatorQuery in fails then Fail(500, "Error creating group") else Created(g))
  {
    if InsertGroupQuery in fails then
      Outcome(db, Fail(500, "Error creating group"), [])
    else if CodeTaken(db.groups, code) then
      Outcome(db, Fail(400, "Group name already exists"), [])
    else if !HasUser(db.users, createdBy) then
      Outcome(db, Fail(500, "Error creating group"), [])
    else
      var g := Group(db.nextGroupId, name, code, createdBy);
      var db1 := db.(groups := db.groups + [g], nextGroupId := db.nextGroupId + 1);
      if InsertCreatorQuery in fails then
        Outcome(db1, Fail(500, "Error creating group"), [])
      else
        Outcome(db1.(members := db.members + [Membership(g.id, createdBy)]), Created(g), [])
  }

  predicate JoinAllowed(db: Db, userId: UserId, code: string, fails: set<nat>) {
    && FindGroupQuery !in fails && FindMemberQuery !in fails && InsertMemberQuery !in fails
    && GroupIdByCode(db.groups, code).Some?
    && Membership(GroupIdByCode(db.groups, code).value, userId) !in db.members
    && HasUser(db.users, userId)
  }

  /** `POST /api/groups/join`. */
  function OnJoinGroup(db: Db, userId: UserId, code: string, fails: set<nat>): (r: Outcome)
    ensures r.out == []
    ensures r.reply.Ok? <==> JoinAllowed(db, userId, code, fails)
    ensures !r.reply.Ok? ==> r.db == db
    ensures r.reply.Ok? ==> r.db == db.(members := db.members + [Membership(GroupIdByCode(db.groups, code).value, userId)])
    ensures FindGroupQuery !in fails && GroupIdByCode(db.groups, code).None? ==> r.reply == Fail(400, "Invalid group code")
    ensures (FindGroupQuery !in fails && FindMemberQuery !in fails && GroupIdByCode(db.groups, code).Some?
             && Membership(GroupIdByCode(db.groups, code).value, userId) in db.members)
      ==> r.reply == Fail(400, "Already a member of this group")
  {
    if FindGroupQuery in fails then
      Outcome(db, Fail(500, "Error joining group"), [])
    else match GroupIdByCode(db.groups, code)
      case None => Outcome(db, Fail(400, "Invalid group code"), [])
      case Some(groupId) =>
        if FindMemberQuery in fails then
          Outcome(db, Fail(500, "Error joining group"), [])
        else if Membership(groupId, userId) in db.members then
          Outcome(db, Fail(400, "Already a member of this group"), [])
        else if InsertMemberQuery in fails || !HasUser(db.users, userId) then
          // a fault, or the REFERENCES check on user_id (error 23503)
          Outcome(db, Fail(500, "Error joining group"), [])
        else
          Outcome(db.(members := db.members + [Membership(groupId, userId)]), Ok("Successfully joined group"), [])
  }

  // ----- Properties -----

  /** A created group has its creator as a member, and its code finds it. */
  lemma CreatorIsMember(db: Db, name: string, code: string, createdBy: UserId, fails: set<nat>)
    requires OnCreateGroup(db, name, code, createdBy, fails).reply.Created?
    ensures var r := OnCreateGroup(db, name, code, createdBy, fails);
      && Membership(r.reply.group.id, createdBy) in r.db.members
      && GroupIdByCode(r.db.groups, code) == Some(r.reply.group.id)
  {
    var r := OnCreateGroup(db, name, code, createdBy, fails);
    assert r.db.groups[|db.groups|] == r.reply.group;
  }

  lemma CreateGroupPreservesValid(db: Db, name: string, code: string, createdBy: UserId, fails: set<nat>)
    requires Valid(db)
    ensures Valid(OnCreateGroup(db, name, code, createdBy, fails).db)
  {
    if !(InsertGroupQuery in fails || CodeTaken(db.groups, code) || !HasUser(db.users, createdBy)) {
      var g := Group(db.nextGroupId, name, code, createdBy);
      var db1 := db.(groups := db.groups + [g], nextGroupId := db.nextGroupId + 1);
      AddGroupPreservesValid(db, g);
      if InsertCreatorQuery !in fails {
        assert db1.groups[|db.groups|] == g;
        assert HasGroup(db1.groups, g.id);
        AddMemberPreservesValid(db1, Membership(g.id, createdBy));
      }
    }
  }

  lemma JoinGroupPreservesValid(db: Db, userId: UserId, code: string, fails: set<nat>)
    requires Valid(db)
    ensures Valid(OnJoinGroup(db, userId, code, fails).db)
  {
    if JoinAllowed(db, userId, code, fails) {
      var groupId := GroupIdByCode(db.groups, code).value;
      assert HasGroup(db.groups, groupId);
      AddMemberPreservesValid(db, Membership(groupId, userId));
    }
  }

  /** Joining is not repeatable: once in, the same join is refused and
      changes nothing. */
  lemma SecondJoinRefused(db: Db, userId: UserId, code: string, fails: set<nat>)
    requires OnJoinGroup(db, userId, code, fails).reply.Ok?
    ensures var db1 := OnJoinGroup(db, userId, code, fails).db;
      && OnJoinGroup(db1, userId, code, fails) == Outcome(db1, Fail(400, "Already a member of this group"), [])
  {
  }
}

=== FILE: history.dfy ===
/** The two history queries: the rows of `messages` joined with the sender's
    username, filtered by conversation and ordered by `created_at` ascending. */
module History {
  import opened Types
  import opened Seqs
  import opened Store

  datatype HistoryRow = HistoryRow(msg: Message, senderUsername: string)

  /** A direct message between `a` and `b`, sent in either direction. */
  predicate Between(m: Message, a: UserId, b: UserId) {
    m.to.Direct? && ((m.sender == a && m.to.receiver == b) || (m.sender == b && m.to.receiver == a))
  }

  predicate InGroup(m: Message, g: GroupId) {
    m.to == ToGroup(g)
  }

  function CreatedAt(m: Message): int { m.createdAt }

  function Msgs(rows: seq<HistoryRow>): (r: seq<Message>)
    ensures |r| == |rows|
    ensures forall i :: 0 <= i < |rows| ==> r[i] == rows[i].msg
  {
    seq(|rows|, i requires 0 <= i < |rows| => rows[i].msg)
  }

  ghost predicate Ascending(rows: seq<HistoryRow>) {
    forall i, j :: 0 <= i < j < |rows| ==> rows[i].msg.createdAt <= rows[j].msg.createdAt
  }

  /** `JOIN users u ON m.sender_id = u.id`: each message with the sender's name. */
  function WithUsernames(users: seq<User>, ms: seq<Message>): (rows: seq<HistoryRow>)
    requires forall i :: 0 <= i < |ms| ==> HasUser(users, ms[i].sender)
    ensures Msgs(rows) == ms
    ensures forall i :: 0 <= i < |rows| ==> User(rows[i].msg.sender, rows[i].senderUsername) in users
  {
    seq(|ms|, i requires 0 <= i < |ms| && HasUser(users, ms[i].sender) => HistoryRow(ms[i], UsernameOf(users, ms[i].sender).value))
  }

  /** The rows a history query returns: the messages `keep` selects whose
      sender has a `users` row, sorted by timestamp. */
  function Select(db: Db, keep: Message -> bool): (rows: seq<HistoryRow>)
    ensures Ascending(rows)
    ensures forall m :: multiset(Msgs(rows))[m] == if keep(m) && HasUser(db.users, m.sender) then multiset(db.messages)[m] else 0
    ensures forall i :: 0 <= i < |rows| ==> User(rows[i].msg.sender, rows[i].senderUsername) in db.users
  {
    var keepRow := (m: Message) => keep(m) && HasUser(db.users, m.sender);
    var picked := Filter(db.messages, keepRow);
    var sorted := SortBy(picked, CreatedAt);
    SortedRowsAscending(sorted);
    ForallInMultiset(sorted, picked, (m: Message) => HasUser(db.users, m.sender));
    var rows := WithUsernames(db.users, sorted);
    assert multiset(Msgs(rows)) == multiset(picked);
    rows
  }

  lemma SortedRowsAscending(sorted: seq<Message>)
    requires SortedBy(sorted, CreatedAt)
    ensures forall i, j :: 0 <= i < j < |sorted| ==> sorted[i].createdAt <= sorted[j].createdAt
  {
  }

  lemma ForallInMultiset<T>(s: seq<T>, t: seq<T>, p: T -> bool)
    requires multiset(s) == multiset(t)
    requires forall i :: 0 <= i < |t| ==> p(t[i])
    ensures forall i :: 0 <= i < |s| ==> p(s[i])
  {
    forall i | 0 <= i < |s|
      ensures p(s[i])
    {
      assert s[i] in multiset(t);
      var j :| 0 <= j < |t| && t[j] == s[i];
    }
  }

  /** `GET /api/messages/:userId/:friendId`. */
  function DirectHistory(db: Db, a: UserId, b: UserId): (rows: seq<HistoryRow>)
    ensures Ascending(rows)
    ensures forall m :: multiset(Msgs(rows))[m] == if Between(m, a, b) && HasUser(db.users, m.sender) then multiset(db.messages)[m] else 0
    ensures forall i :: 0 <= i < |rows| ==> User(rows[i].msg.sender, rows[i].senderUsername) in db.users
  {
    Select(db, (m: Message) => Between(m, a, b))
  }

  /** `GET /api/groups/:groupId/messages`. */
  function GroupHistory(db: Db, g: GroupId): (rows: seq<HistoryRow>)
    ensures Ascending(rows)
    ensures forall m :: multiset(Msgs(rows))[m] == if InGroup(m, g) && HasUser(db.users, m.sender) then multiset(db.messages)[m] else 0
    ensures forall i :: 0 <= i < |rows| ==> User(rows[i].msg.sender, rows[i].senderUsername) in db.users
  {
    Select(db, (m: Message) => InGroup(m, g))
  }

  /** With the references in place the join drops nothing: the direct
      history holds exactly the stored messages between the two users. */
  lemma DirectHistoryExact(db: Db, a: UserId, b: UserId, m: Message)
    requires Valid(db)
    ensures m in Msgs(DirectHistory(db, a, b)) <==> m in db.messages && Between(m, a, b)
  {
  }

  /** Likewise for a group: exactly the stored messages addressed to it. */
  lemma GroupHistoryExact(db: Db, g: GroupId, m: Message)
    requires Valid(db)
    ensures m in Msgs(GroupHistory(db, g)) <==> m in db.messages && InGroup(m, g)
  {
  }

  /** Both participants see the same conversation. */
  lemma DirectHistorySymmetric(db: Db, a: UserId, b: UserId)
    ensures multiset(Msgs(DirectHistory(db, a, b))) == multiset(Msgs(DirectHistory(db, b, a)))
  {
    var x := multiset(Msgs(DirectHistory(db, a, b)));
    var y := multiset(Msgs(DirectHistory(db, b, a)));
    forall m
      ensures x[m] == y[m]
    {
      assert Between(m, a, b) == Between(m, b, a);
    }
    assert x == y;
  }

  /** A stored message between the pair, by a known sender, is in their history. */
  lemma StoredIsInHistory(db: Db, a: UserId, b: UserId, m: Message)
    requires m in db.messages && Between(m, a, b) && HasUser(db.users, m.sender)
    ensures m in Msgs(DirectHistory(db, a, b))
  {
    assert multiset(db.messages)[m] > 0;
    assert multiset(Msgs(DirectHistory(db, a, b)))[m] > 0;
  }
}

=== FILE: rooms.dfy ===
/** The socket.io room registry: the room named after a user id holds every
    connection that sent `join` with that id. A room with no connections is
    the same as no room. */
module Rooms {
  import opened Types
  import opened Events

  type Registry = map<UserId, set<ConnId>>

  function Connections(reg: Registry, u: UserId): set<ConnId> {
    if u in reg then reg[u] else {}
  }

  /** No entry holds an empty set. */
  ghost predicate Tidy(reg: Registry) {
    forall u :: u in reg ==> reg[u] != {}
  }

  /** `socket.join(String(u))`: adds the connection to `u`'s room and to no other. */
  function Join(reg: Registry, conn: ConnId, u: UserId): (r: Registry)
    ensures Connections(r, u) == Connections(reg, u) + {conn}
    ensures forall v :: v != u ==> Connections(r, v) == Connections(reg, v)
    ensures Tidy(reg) ==> Tidy(r)
  {
    reg[u := Connections(reg, u) + {conn}]
  }

  /** Transport disconnect: socket.io drops the connection from every room. */
  function Leave(reg: Registry, conn: ConnId): (r: Registry)
    ensures forall v :: Connections(r, v) == Connections(reg, v) - {conn}
    ensures Tidy(r)
  {
    map v | v in reg && reg[v] - {conn} != {} :: reg[v] - {conn}
  }

  /** Joining twice with the same id is the same as joining once. */
  lemma JoinIdempotent(reg: Registry, conn: ConnId, u: UserId)
    ensures Join(Join(reg, conn, u), conn, u) == Join(reg, conn, u)
  {
  }

  /** Joins of one connection, to the rooms of `us` in turn. */
  function JoinAll(reg: Registry, conn: ConnId, us: seq<UserId>): (r: Registry)
    ensures forall v :: Connections(r, v) == if v in us then Connections(reg, v) + {conn} else Connections(reg, v)
    decreases |us|
  {
    if |us| == 0 then reg else JoinAll(Join(reg, conn, us[0]), conn, us[1..])
  }

  /** However many joins a connection made, one disconnect removes it from
      every room and touches no other connection. */
  lemma {:induction false} LeaveUndoesJoins(reg: Registry, conn: ConnId, us: seq<UserId>)
    requires Tidy(reg)
    requires forall v :: conn !in Connections(reg, v)
    ensures Leave(JoinAll(reg, conn, us), conn) == reg
  {
    var r := Leave(JoinAll(reg, conn, us), conn);
    forall v
      ensures Connections(r, v) == Connections(reg, v)
    {
    }
    forall v | v in r
      ensures v in reg && r[v] == reg[v]
    {
      assert Connections(r, v) != {};
    }
    forall v | v in reg
      ensures v in r
    {
      assert Connections(reg, v) != {};
    }
  }

  /** Connection `c` receives what is sent to target `t`. */
  predicate Reaches(reg: Registry, origin: ConnId, t: Target, c: ConnId) {
    match t
    case Origin => c == origin
    case Room(u) => c in Connections(reg, u)
  }

  /** One emission, delivered once to each connection its target reaches. */
  function DeliverOne(reg: Registry, origin: ConnId, em: Emission): multiset<(ConnId, Event)> {
    match em.target
    case Origin => multiset{(origin, em.event)}
    case Room(u) => multiset(set c | c in Connections(reg, u) :: (c, em.event))
  }

  /** Fire-and-forget delivery of a handler's emissions: a room without
      connections drops its events, and nothing is queued. */
  function Deliver(reg: Registry, origin: ConnId, out: seq<Emission>): (r: multiset<(ConnId, Event)>)
    ensures forall c: ConnId, e: Event :: (c, e) in r <==> exists i :: 0 <= i < |out| && out[i].event == e && Reaches(reg, origin, out[i].target, c)
  {
    if |out| == 0 then multiset{}
    else
      var rest := Deliver(reg, origin, out[1..]);
      forall c: ConnId, e: Event
        ensures (c, e) in DeliverOne(reg, origin, out[0]) <==> out[0].event == e && Reaches(reg, origin, out[0].target, c)
      {
        if out[0].target.Room? {
          var s := set c' | c' in Connections(reg, out[0].target.user) :: (c', out[0].event);
          assert (c, e) in s <==> out[0].event == e && c in Connections(reg, out[0].target.user);
        }
      }
      assert forall i :: 1 <= i < |out| ==> out[1..][i - 1] == out[i];
      DeliverOne(reg, origin, out[0]) + rest
  }

  /** Sending to a user with no live connections is a silent no-op. */
  lemma EmptyRoomDropsEvent(reg: Registry, origin: ConnId, u: UserId, e: Event)
    requires Connections(reg, u) == {}
    ensures Deliver(reg, origin, [Emission(Room(u), e)]) == multiset{}
  {
  }

  /** After a disconnect, no room event reaches the connection. */
  lemma LeftConnectionGetsNoRoomEvent(reg: Registry, origin: ConnId, conn: ConnId, out: seq<Emission>, e: Event)
    requires OnlyRooms(out)
    ensures (conn, e) !in Deliver(Leave(reg, conn), origin, out)
  {
  }
}

=== FILE: seqs.dfy ===
/** Sequence scans used by the query model: the first matching row, the rows a
    WHERE clause keeps, and ORDER BY on an integer key. */
module Seqs {
  import opened Types

  /** Index of the first element that satisfies `p`: what `rows[0]` reads
      after a SELECT scans a table in its stored order. */
  function FindFirst<T>(s: seq<T>, p: T -> bool): (r: Option<nat>)
    ensures r.Some? ==> r.value < |s| && p(s[r.value])
    ensures r.Some? ==> forall j :: 0 <= j < r.value ==> !p(s[j])
    ensures r.None? <==> forall j :: 0 <= j < |s| ==> !p(s[j])
  {
    if |s| == 0 then None
    else if p(s[0]) then Some(0)
    else match FindFirst(s[1..], p)
      case None => None
      case Some(k) => Some(k + 1)
  }

  /** The elements of `s` that satisfy `p`, in their original order. */
  function Filter<T(!new)>(s: seq<T>, p: T -> bool): (r: seq<T>)
    ensures |r| <= |s|
    ensures forall i :: 0 <= i < |r| ==> p(r[i])
    ensures forall x :: multiset(r)[x] == if p(x) then multiset(s)[x] else 0
  {
    if |s| == 0 then []
    else
      assert s == [s[0]] + s[1..];
      if p(s[0]) then [s[0]] + Filter(s[1..], p) else Filter(s[1..], p)
  }

  /** Non-decreasing in `key` at every pair of positions. */
  ghost predicate SortedBy<T>(s: seq<T>, key: T -> int) {
    forall i, j :: 0 <= i < j < |s| ==> key(s[i]) <= key(s[j])
  }

  /** Inserts `x` in front of the first element with a key not below its own. */
  function InsertBy<T>(x: T, s: seq<T>, key: T -> int): (r: seq<T>)
    requires SortedBy(s, key)
    ensures SortedBy(r, key)
    ensures multiset(r) == multiset(s) + multiset{x}
    ensures |r| == |s| + 1
  {
    if |s| == 0 then [x]
    else if key(x) <= key(s[0]) then [x] + s
    else
      var t := s[1..];
      var rest := InsertBy(x, t, key);
      assert s == [s[0]] + t;
      BoundedBelow(s, x, rest, key);
      ConsSorted(s[0], rest, key);
      [s[0]] + rest
  }

  /** Every element of `t` or `x` has a key at least that of the head of `s`. */
  lemma BoundedBelow<T>(s: seq<T>, x: T, rest: seq<T>, key: T -> int)
    requires |s| > 0 && SortedBy(s, key) && key(s[0]) <= key(x)
    requires multiset(rest) == multiset(s[1..]) + multiset{x}
    ensures forall k :: 0 <= k < |rest| ==> key(s[0]) <= key(rest[k])
  {
    forall k | 0 <= k < |rest|
      ensures key(s[0]) <= key(rest[k])
    {
      assert rest[k] in multiset(rest);
      if rest[k] != x {
        assert rest[k] in multiset(s[1..]);
        var m :| 0 <= m < |s[1..]| && s[1..][m] == rest[k];
        assert s[m + 1] == rest[k];
      }
    }
  }

  /** A head no larger than anything after it keeps a sorted tail sorted. */
  lemma ConsSorted<T>(y: T, rest: seq<T>, key: T -> int)
    requires SortedBy(rest, key)
    requires forall k :: 0 <= k < |rest| ==> key(y) <= key(rest[k])
    ensures SortedBy([y] + rest, key)
  {
    var r := [y] + rest;
    forall i, j | 0 <= i < j < |r|
      ensures key(r[i]) <= key(r[j])
    {
      assert r[j] == rest[j - 1];
      if i > 0 {
        assert r[i] == rest[i - 1];
      }
    }
  }

  /** ORDER BY `key` ASC: a permutation of `s` sorted by `key`. */
  function SortBy<T>(s: seq<T>, key: T -> int): (r: seq<T>)
    ensures SortedBy(r, key)
    ensures multiset(r) == multiset(s)
    ensures |r| == |s|
  {
    if |s| == 0 then []
    else
      assert s == [s[0]] + s[1..];
      InsertBy(s[0], SortBy(s[1..], key), key)
  }
}

=== FILE: server.dfy ===
/** The server as one state machine: the store plus the room registry, fed
    the four socket events of one connection, with the resulting deliveries
    to live connections. Also the end-to-end runs of a direct message from
    the sending screen to both users' connections and back into the view. */
module Server {
  import opened Types
  import opened Store
  import opened Events
  import opened Rooms
  import opened Dispatch
  import ChatView
  import Text
  import History

  datatype State = State(db: Db, rooms: Registry)

  datatype Inbound =
    | JoinEvent(userId: UserId)
    | PrivateEvent(senderId: UserId, receiverId: UserId, content: string, timestamp: Timestamp)
    | GroupEvent(senderId: UserId, groupId: GroupId, content: string, timestamp: Timestamp)
    | DisconnectEvent(reason: string)

  /** The emissions of one inbound event and the state after it. */
  function Handle(s: State, conn: ConnId, ev: Inbound, fails: set<nat>): (r: (State, seq<Emission>))
    ensures Valid(s.db) ==> Valid(r.0.db)
    ensures ev.DisconnectEvent? ==> r.1 == [] && forall v :: conn !in Connections(r.0.rooms, v)
    ensures !ev.JoinEvent? && !ev.DisconnectEvent? ==> r.0.rooms == s.rooms
    ensures forall i :: 0 <= i < |r.1| && r.1[i].event.Error? ==> r.1[i].target == Origin
    ensures forall i :: 0 <= i < |r.1| && (r.1[i].event.PrivateMessage? || r.1[i].event.GroupMessage?) ==>
      Persisted(r.0.db, r.1[i].event.msg)
  {
    match ev
    case JoinEvent(u) =>
      var j := OnJoin(s.rooms, conn, u);
      (State(s.db, j.0), j.1)
    case PrivateEvent(sender, receiver, content, at) =>
      MessageHandlersPreserveValid(s.db, sender, Direct(receiver), content, at, fails);
      var st := OnPrivateMessage(s.db, sender, receiver, content, at, fails);
      (State(st.db, s.rooms), st.out)
    case GroupEvent(sender, g, content, at) =>
      MessageHandlersPreserveValid(s.db, sender, ToGroup(g), content, at, fails);
      var st := OnGroupMessage(s.db, sender, g, content, at, fails);
      (State(st.db, s.rooms), st.out)
    case DisconnectEvent(reason) =>
      (State(s.db, OnDisconnect(s.rooms, conn, reason)), [])
  }

  /** What each live connection receives from one inbound event. */
  function Step(s: State, conn: ConnId, ev: Inbound, fails: set<nat>): (r: (State, multiset<(ConnId, Event)>))
    ensures Valid(s.db) ==> Valid(r.0.db)
    // an error reaches the originating connection and no other
    ensures forall c, e :: (c, e) in r.1 && e.Error? ==> c == conn
    // a message reaches a connection only once it is stored
    ensures forall c, e :: (c, e) in r.1 && (e.PrivateMessage? || e.GroupMessage?) ==> Persisted(r.0.db, e.msg)
  {
    var h := Handle(s, conn, ev, fails);
    (h.0, Deliver(h.0.rooms, conn, h.1))
  }

  /** A stored direct message reaches every live connection of the sender and
      of the receiver with the same payload, and nothing else of it is sent. */
  lemma DirectMessageReachesBothUsers(s: State, conn: ConnId, sender: UserId, receiver: UserId, content: string, at: Timestamp, fails: set<nat>)
    requires !InsertFails(s.db, sender, Direct(receiver), fails) && !LookupFails(s.db, sender, fails)
    ensures var r := Step(s, conn, PrivateEvent(sender, receiver, content, at), fails);
      exists p: Payload ::
        && p.id == s.db.nextMessageId && p.senderId == sender && p.to == Direct(receiver)
        && p.content == content && p.timestamp == at
        && (forall c :: c in Connections(s.rooms, sender) || c in Connections(s.rooms, receiver) ==> (c, PrivateMessage(p)) in r.1)
        && (forall c, e :: (c, e) in r.1 ==> e == PrivateMessage(p) && (c in Connections(s.rooms, sender) || c in Connections(s.rooms, receiver)))
  {
    var h := Handle(s, conn, PrivateEvent(sender, receiver, content, at), fails);
    var p := h.1[0].event.msg;
    assert h.1 == [Emission(Room(sender), PrivateMessage(p)), Emission(Room(receiver), PrivateMessage(p))];
  }

  /** A user offline at send time gets nothing live; the message is still
      stored and is in that user's next history fetch. */
  lemma OfflineReceiverGetsNothingLive(s: State, conn: ConnId, sender: UserId, receiver: UserId, content: string, at: Timestamp, fails: set<nat>, c: ConnId, e: Event)
    requires !InsertFails(s.db, sender, Direct(receiver), fails)
    requires c !in Connections(s.rooms, sender) && c != conn
    requires Connections(s.rooms, receiver) == {}
    ensures (c, e) !in Step(s, conn, PrivateEvent(sender, receiver, content, at), fails).1
    ensures Message(s.db.nextMessageId, sender, Direct(receiver), content, at)
      in Step(s, conn, PrivateEvent(sender, receiver, content, at), fails).0.db.messages
    ensures Message(s.db.nextMessageId, sender, Direct(receiver), content, at)
      in History.Msgs(History.DirectHistory(Step(s, conn, PrivateEvent(sender, receiver, content, at), fails).0.db, receiver, sender))
  {
    var h := Handle(s, conn, PrivateEvent(sender, receiver, content, at), fails);
    assert h.0.rooms == s.rooms;
    assert h.0.db == OnPrivateMessage(s.db, sender, receiver, content, at, fails).db;
    forall i | 0 <= i < |h.1|
      ensures !Reaches(s.rooms, conn, h.1[i].target, c)
    {
      assert h.1[i].target == Origin || h.1[i].target == Room(sender) || h.1[i].target == Room(receiver);
    }
    StoredInReceiverHistory(s, conn, sender, receiver, content, at, fails);
  }

  lemma StoredInReceiverHistory(s: State, conn: ConnId, sender: UserId, receiver: UserId, content: string, at: Timestamp, fails: set<nat>)
    requires !InsertFails(s.db, sender, Direct(receiver), fails)
    ensures Message(s.db.nextMessageId, sender, Direct(receiver), content, at)
      in History.Msgs(History.DirectHistory(Step(s, conn, PrivateEvent(sender, receiver, content, at), fails).0.db, receiver, sender))
  {
    var db1 := OnPrivateMessage(s.db, sender, receiver, content, at, fails).db;
    assert Step(s, conn, PrivateEvent(sender, receiver, content, at), fails).0.db == db1;
    var m := Message(s.db.nextMessageId, sender, Direct(receiver), content, at);
    assert db1.messages[|s.db.messages|] == m;
    History.StoredIsInHistory(db1, receiver, sender, m);
  }

  /** The sending screen's own event, dispatched and echoed back: the
      conversation then shows the message, and if it was not there before,
      as a new last entry marked as sent by this user with the draft's text. */
  lemma SelfEchoShowsSentMessage(cs: ChatView.ChatState, now: Timestamp, s: State, conn: ConnId, fails: set<nat>)
    requires cs.friend.Some? && !Text.Blank(cs.draft)
    requires conn in Connections(s.rooms, cs.me)
    ensures var sent := ChatView.Send(cs, now);
      var out := sent.1.value;
      var r := Step(s, conn, PrivateEvent(out.senderId, out.receiverId, out.content, out.timestamp), fails);
      !InsertFails(s.db, cs.me, Direct(cs.friend.value), fails) && !LookupFails(s.db, cs.me, fails) ==>
        exists p: Payload ::
          && (conn, PrivateMessage(p)) in r.1
          && var after := ChatView.ReceivePrivate(sent.0, p);
          && ChatView.HasCopy(after.view, p)
          && (!ChatView.HasCopy(cs.view, p) ==>
                && |after.view| == |cs.view| + 1
                && after.view[|cs.view|].isSent
                && after.view[|cs.view|].content == cs.draft)
  {
    var sent := ChatView.Send(cs, now);
    assert sent.1.value == ChatView.PrivateOut(cs.me, cs.draft, now, cs.friend.value);
    if !InsertFails(s.db, cs.me, Direct(cs.friend.value), fails) && !LookupFails(s.db, cs.me, fails) {
      var p := EchoPayload(s, conn, cs.me, cs.friend.value, cs.draft, now, fails);
      EchoShows(cs, now, p);
    }
  }

  /** The sender's own connection receives the stored payload. */
  lemma EchoPayload(s: State, conn: ConnId, sender: UserId, receiver: UserId, content: string, at: Timestamp, fails: set<nat>) returns (p: Payload)
    requires !InsertFails(s.db, sender, Direct(receiver), fails) && !LookupFails(s.db, sender, fails)
    requires conn in Connections(s.rooms, sender)
    ensures p.senderId == sender && p.to == Direct(receiver) && p.content == content
    ensures (conn, PrivateMessage(p)) in Step(s, conn, PrivateEvent(sender, receiver, content, at), fails).1
  {
    var h := Handle(s, conn, PrivateEvent(sender, receiver, content, at), fails);
    p := h.1[0].event.msg;
    assert h.1 == [Emission(Room(sender), PrivateMessage(p)), Emission(Room(receiver), PrivateMessage(p))];
    assert Reaches(h.0.rooms, conn, h.1[0].target, conn);
  }

  /** A payload from the screen's user to the open friend lands in the view. */
  lemma EchoShows(cs: ChatView.ChatState, now: Timestamp, p: Payload)
    requires cs.friend.Some? && !Text.Blank(cs.draft)
    requires p.senderId == cs.me && p.to == Direct(cs.friend.value) && p.content == cs.draft
    ensures var after := ChatView.ReceivePrivate(ChatView.Send(cs, now).0, p);
      && ChatView.HasCopy(after.view, p)
      && (!ChatView.HasCopy(cs.view, p) ==>
            && |after.view| == |cs.view| + 1
            && after.view[|cs.view|].isSent
            && after.view[|cs.view|].content == cs.draft)
  {
    var sent := ChatView.Send(cs, now);
    assert sent.0 == cs.(draft := []);
    assert ChatView.ShowsPrivate(sent.0, p);
  }
}

=== FILE: store.dfy ===
/** The persistent store behind the chat server: the five tables created by
    the schema script, each as its rows in stored order, with the schema's
    UNIQUE, NOT NULL and REFERENCES constraints stated as an invariant. */
module Store {
  import opened Types
  import opened Seqs

  datatype User = User(id: UserId, username: string)

  datatype FriendStatus = Pending | Accepted

  /** A row of `friends`: a request from `from` to `to`. */
  datatype FriendEdge = FriendEdge(from: UserId, to: UserId, status: FriendStatus)

  datatype Group = Group(id: GroupId, name: string, code: string, creator: UserId)

  datatype Membership = Membership(group: GroupId, user: UserId)

  /** A well-formed payload makes a message row set exactly one of `receiver_id`
      and `group_id`; the schema itself does not require it. */
  datatype Addressee = Direct(receiver: UserId) | ToGroup(group: GroupId)

  datatype Message = Message(id: MessageId, sender: UserId, to: Addressee, content: string, createdAt: Timestamp)

  /** All tables, plus the next values of the two SERIAL sequences the core reads back. */
  datatype Db = Db(
    users: seq<User>,
    friends: seq<FriendEdge>,
    groups: seq<Group>,
    members: seq<Membership>,
    messages: seq<Message>,
    nextGroupId: GroupId,
    nextMessageId: MessageId)

  // ----- Row lookups -----

  predicate HasUser(users: seq<User>, id: UserId) {
    exists i :: 0 <= i < |users| && users[i].id == id
  }

  predicate HasGroup(groups: seq<Group>, id: GroupId) {
    exists i :: 0 <= i < |groups| && groups[i].id == id
  }

  /** `SELECT username FROM users WHERE id = $1`, first row. */
  function UsernameOf(users: seq<User>, id: UserId): (r: Option<string>)
    ensures r.Some? <==> HasUser(users, id)
    ensures r.Some? ==> User(id, r.value) in users
  {
    match FindFirst(users, (u: User) => u.id == id)
    case None => None
    case Some(i) => Some(users[i].username)
  }

  /** `SELECT id FROM users WHERE username = $1`, first row. */
  function UserIdByName(users: seq<User>, name: string): (r: Option<UserId>)
    ensures r.Some? ==> User(r.value, name) in users
    ensures r.None? <==> forall i :: 0 <= i < |users| ==> users[i].username != name
  {
    match FindFirst(users, (u: User) => u.username == name)
    case None => None
    case Some(i) => Some(users[i].id)
  }

  /** `SELECT id FROM groups WHERE code = $1`, first row. */
  function GroupIdByCode(groups: seq<Group>, code: string): (r: Option<GroupId>)
    ensures r.Some? ==> exists i :: 0 <= i < |groups| && groups[i].id == r.value && groups[i].code == code
    ensures r.None? <==> forall i :: 0 <= i < |groups| ==> groups[i].code != code
  {
    match FindFirst(groups, (g: Group) => g.code == code)
    case None => None
    case Some(i) => Some(groups[i].id)
  }

  /** `SELECT user_id FROM group_members WHERE group_id = $1`, one id per row in stored order. */
  function MembersOf(members: seq<Membership>, g: GroupId): (r: seq<UserId>)
    ensures forall u :: u in r <==> Membership(g, u) in members
    ensures forall u :: multiset(r)[u] == multiset(members)[Membership(g, u)]
  {
    if |members| == 0 then []
    else
      assert members == [members[0]] + members[1..];
      if members[0].group == g then [members[0].user] + MembersOf(members[1..], g)
      else MembersOf(members[1..], g)
  }

  // ----- Friend edges -----

  /** Edge `e` joins `a` and `b`, in either direction. */
  predicate Links(e: FriendEdge, a: UserId, b: UserId) {
    (e.from == a && e.to == b) || (e.from == b && e.to == a)
  }

  /** The end of `e` that is not `u` (or `u` itself for a self-edge). */
  function Other(e: FriendEdge, u: UserId): UserId {
    if e.from == u then e.to else e.from
  }

  // ----- Store invariant -----

  /** `users.id` is a SERIAL primary key, so no row has id 0, and
      `users.username` is UNIQUE (init-db.js lines 11-12). */
  ghost predicate UsersUnique(users: seq<User>) {
    && (forall i :: 0 <= i < |users| ==> users[i].id != 0)
    && (forall i, j :: 0 <= i < j < |users| ==> users[i].id != users[j].id && users[i].username != users[j].username)
  }

  /** At most one edge per unordered pair. This is stronger than the schema's
      UNIQUE(user_id, friend_id) (init-db.js line 28): the request handler
      refuses a request when an edge exists in either direction. */
  ghost predicate OneEdgePerPair(edges: seq<FriendEdge>) {
    forall i, j :: 0 <= i < j < |edges| ==> !Links(edges[j], edges[i].from, edges[i].to)
  }

  /** `groups.id` is a SERIAL primary key and `groups.code` is UNIQUE (init-db.js lines 37-40). */
  ghost predicate GroupsUnique(groups: seq<Group>, nextGroupId: GroupId) {
    && (forall i :: 0 <= i < |groups| ==> groups[i].id < nextGroupId)
    && (forall i, j :: 0 <= i < j < |groups| ==> groups[i].id != groups[j].id && groups[i].code != groups[j].code)
  }

  /** UNIQUE(group_id, user_id) on `group_members` (init-db.js line 54). */
  ghost predicate MembershipsUnique(members: seq<Membership>) {
    forall i, j :: 0 <= i < j < |members| ==> members[i] != members[j]
  }

  /** Message ids come from a SERIAL column: increasing in insertion order. */
  ghost predicate MessageIdsIncreasing(messages: seq<Message>, nextMessageId: MessageId) {
    && (forall i :: 0 <= i < |messages| ==> messages[i].id < nextMessageId)
    && (forall i, j :: 0 <= i < j < |messages| ==> messages[i].id < messages[j].id)
  }

  /** The REFERENCES constraints: every id column points at an existing row. */
  ghost predicate ReferencesHold(db: Db) {
    && (forall i :: 0 <= i < |db.friends| ==> HasUser(db.users, db.friends[i].from) && HasUser(db.users, db.friends[i].to))
    && (forall i :: 0 <= i < |db.groups| ==> HasUser(db.users, db.groups[i].creator))
    && (forall i :: 0 <= i < |db.members| ==> HasGroup(db.groups, db.members[i].group) && HasUser(db.users, db.members[i].user))
    && (forall i :: 0 <= i < |db.messages| ==> HasUser(db.users, db.messages[i].sender))
    && (forall i :: 0 <= i < |db.messages| ==> AddresseeExists(db, db.messages[i].to))
  }

  ghost predicate AddresseeExists(db: Db, to: Addressee) {
    match to
    case Direct(r) => HasUser(db.users, r)
    case ToGroup(g) => HasGroup(db.groups, g)
  }

  ghost predicate Valid(db: Db) {
    && UsersUnique(db.users)
    && OneEdgePerPair(db.friends)
    && GroupsUnique(db.groups, db.nextGroupId)
    && MembershipsUnique(db.members)
    && MessageIdsIncreasing(db.messages, db.nextMessageId)
    && ReferencesHold(db)
  }

  /** The one-edge-per-pair invariant implies the schema's own UNIQUE(user_id, friend_id). */
  lemma OneEdgePerPairGivesUniqueColumns(edges: seq<FriendEdge>)
    requires OneEdgePerPair(edges)
    ensures forall i, j :: 0 <= i < j < |edges| ==> (edges[i].from, edges[i].to) != (edges[j].from, edges[j].to)
  {
  }

  /** Under the invariant a user id has exactly one row, so the username lookup is its name. */
  lemma UsernameIsUnique(users: seq<User>, id: UserId, name: string)
    requires UsersUnique(users)
    requires User(id, name) in users
    ensures UsernameOf(users, id) == Some(name)
  {
  }

  /** Adding an edge between two existing users that no edge joins yet keeps the invariant. */
  lemma AddEdgePreservesValid(db: Db, e: FriendEdge)
    requires Valid(db)
    requires HasUser(db.users, e.from) && HasUser(db.users, e.to)
    requires forall i :: 0 <= i < |db.friends| ==> !Links(db.friends[i], e.from, e.to)
    ensures Valid(db.(friends := db.friends + [e]))
  {
    var db1 := db.(friends := db.friends + [e]);
    forall i, j | 0 <= i < j < |db1.friends|
      ensures !Links(db1.friends[j], db1.friends[i].from, db1.friends[i].to)
    {
      assert db1.friends[i] == db.friends[i];
      if j < |db.friends| {
        assert db1.friends[j] == db.friends[j];
      } else {
        assert db1.friends[j] == e;
        assert !Links(db.friends[i], e.from, e.to);
      }
    }
    forall i | 0 <= i < |db1.friends|
      ensures HasUser(db1.users, db1.friends[i].from) && HasUser(db1.users, db1.friends[i].to)
    {
      if i < |db.friends| {
        assert db1.friends[i] == db.friends[i];
      }
    }
    forall i | 0 <= i < |db1.messages|
      ensures AddresseeExists(db1, db1.messages[i].to)
    {
      assert AddresseeExists(db, db.messages[i].to);
    }
  }

  /** A group under the next id, a free code and an existing creator keeps the invariant. */
  lemma AddGroupPreservesValid(db: Db, g: Group)
    requires Valid(db)
    requires g.id == db.nextGroupId && HasUser(db.users, g.creator)
    requires forall i :: 0 <= i < |db.groups| ==> db.groups[i].code != g.code
    ensures Valid(db.(groups := db.groups + [g], nextGroupId := db.nextGroupId + 1))
    ensures forall i :: 0 <= i < |db.members| ==> db.members[i].group != g.id
  {
    var db1 := db.(groups := db.groups + [g], nextGroupId := db.nextGroupId + 1);
    forall i | 0 <= i < |db.members|
      ensures HasGroup(db1.groups, db.members[i].group) && db.members[i].group != g.id
    {
      assert HasGroup(db.groups, db.members[i].group);
      var j :| 0 <= j < |db.groups| && db.groups[j].id == db.members[i].group;
      assert db1.groups[j] == db.groups[j];
    }
    forall i | 0 <= i < |db1.messages|
      ensures AddresseeExists(db1, db1.messages[i].to)
    {
      assert AddresseeExists(db, db.messages[i].to);
      if db.messages[i].to.ToGroup? {
        assert HasGroup(db.groups, db.messages[i].to.group);
        var j :| 0 <= j < |db.groups| && db.groups[j].id == db.messages[i].to.group;
        assert db1.groups[j] == db.groups[j];
      }
    }
    assert db1.groups[|db.groups|] == g;
    forall i | 0 <= i < |db1.groups|
      ensures HasUser(db1.users, db1.groups[i].creator)
    {
      if i < |db.groups| {
        assert db1.groups[i] == db.groups[i];
      }
    }
    GroupsStayUnique(db.groups, db.nextGroupId, g);
  }

  lemma GroupsStayUnique(groups: seq<Group>, next: GroupId, g: Group)
    requires GroupsUnique(groups, next) && g.id == next
    requires forall i :: 0 <= i < |groups| ==> groups[i].code != g.code
    ensures GroupsUnique(groups + [g], next + 1)
  {
    var gs := groups + [g];
    forall i, j | 0 <= i < j < |gs|
      ensures gs[i].id != gs[j].id && gs[i].code != gs[j].code
    {
      assert gs[i] == groups[i];
      if j < |groups| {
        assert gs[j] == groups[j];
      }
    }
  }

  /** A new membership of an existing user in an existing group keeps the invariant. */
  lemma AddMemberPreservesValid(db: Db, m: Membership)
    requires Valid(db)
    requires HasGroup(db.groups, m.group) && HasUser(db.users, m.user)
    requires m !in db.members
    ensures Valid(db.(members := db.members + [m]))
  {
    var db1 := db.(members := db.members + [m]);
    assert db1.members[|db.members|] == m;
    forall i | 0 <= i < |db1.members|
      ensures HasGroup(db1.groups, db1.members[i].group) && HasUser(db1.users, db1.members[i].user)
    {
      if i < |db.members| {
        assert db1.members[i] == db.members[i];
      }
    }
    forall i, j | 0 <= i < j < |db1.members|
      ensures db1.members[i] != db1.members[j]
    {
      assert db1.members[i] == db.members[i];
      if j < |db.members| {
        assert db1.members[j] == db.members[j];
      }
    }
    forall i | 0 <= i < |db1.messages|
      ensures AddresseeExists(db1, db1.messages[i].to)
    {
      assert AddresseeExists(db, db.messages[i].to);
    }
  }

  // ----- Inserts -----

  /** `INSERT INTO messages ... RETURNING id`: the new row takes the next SERIAL value. */
  function AppendMessage(db: Db, sender: UserId, to: Addressee, content: string, at: Timestamp): (r: Db)
    ensures |r.messages| == |db.messages| + 1 && r.messages[..|db.messages|] == db.messages
    ensures var m := r.messages[|db.messages|];
      m.id == db.nextMessageId && m.sender == sender && m.to == to && m.content == content && m.createdAt == at
    ensures MessageIdsIncreasing(db.messages, db.nextMessageId) ==> MessageIdsIncreasing(r.messages, r.nextMessageId)
    ensures r.users == db.users && r.friends == db.friends && r.groups == db.groups && r.members == db.members
  {
    db.(messages := db.messages + [Message(db.nextMessageId, sender, to, content, at)],
        nextMessageId := db.nextMessageId + 1)
  }

  lemma AppendMessagePreservesValid(db: Db, sender: UserId, to: Addressee, content: string, at: Timestamp)
    requires Valid(db)
    requires HasUser(db.users, sender) && AddresseeExists(db, to)
    ensures Valid(AppendMessage(db, sender, to, content, at))
  {
  }
}

=== FILE: text.dfy ===
/** `String.prototype.trim`, as far as the send guard needs it. */
module Text {

  /** ECMAScript WhiteSpace and LineTerminator code points. */
  predicate IsSpace(c: char) {
    || c == '\t' || c == '\n' || c == '\U{000B}' || c == '\U{000C}' || c == '\r' || c == ' '
    || c == '\U{00A0}' || c == '\U{1680}' || ('\U{2000}' <= c <= '\U{200A}')
    || c == '\U{2028}' || c == '\U{2029}' || c == '\U{202F}' || c == '\U{205F}'
    || c == '\U{3000}' || c == '\U{FEFF}'
  }

  /** Every character is white space (the empty string included). */
  predicate Blank(s: string) {
    forall i :: 0 <= i < |s| ==> IsSpace(s[i])
  }

  lemma BlankCons(c: char, s: string)
    requires IsSpace(c) && Blank(s)
    ensures Blank([c] + s)
  {
    assert forall i :: 1 <= i < |s| + 1 ==> ([c] + s)[i] == s[i - 1];
  }

  /** Drops leading white space. */
  function TrimStart(s: string): (r: string)
    ensures |r| <= |s| && r == s[|s| - |r|..]
    ensures Blank(s[..|s| - |r|])
    ensures r == [] || !IsSpace(r[0])
  {
    if |s| == 0 || !IsSpace(s[0]) then s
    else
      var t := s[1..];
      var r := TrimStart(t);
      var n := |t| - |r|;
      assert s[n + 1..] == t[n..];
      assert s[..n + 1] == [s[0]] + t[..n];
      BlankCons(s[0], t[..n]);
      r
  }

  /** Drops trailing white space. */
  function TrimEnd(s: string): (r: string)
    ensures |r| <= |s| && r == s[..|r|]
    ensures Blank(s[|r|..])
    ensures r == [] || !IsSpace(r[|r| - 1])
  {
    if |s| == 0 || !IsSpace(s[|s| - 1]) then s
    else
      var r := TrimEnd(s[..|s| - 1]);
      assert s[..|s| - 1][..|r|] == s[..|r|];
      assert forall i :: |r| <= i < |s| - 1 ==> s[i] == s[..|s| - 1][i];
      r
  }

  function Trim(s: string): string {
    TrimEnd(TrimStart(s))
  }

  /** `!s.trim()`: the trimmed string is empty exactly when `s` is blank. */
  lemma TrimEmptyIffBlank(s: string)
    ensures Trim(s) == [] <==> Blank(s)
  {
  }

  /** Trimming keeps a non-blank string's content between its first and last
      non-space characters: it only ever shortens. */
  lemma TrimIsInfix(s: string)
    ensures exists a, b :: 0 <= a <= b <= |s| && Trim(s) == s[a..b]
  {
    var t := TrimStart(s);
    var u := TrimEnd(t);
    var a := |s| - |t|;
    assert u == t[..|u|] == s[a..a + |u|];
  }
}

=== FILE: types.dfy ===
/** Identifiers and the Option wrapper shared by the server and client models. */
module Types {

  /** Ids handed out by the database's SERIAL columns. SERIAL starts at 1,
      so the id 0 never names a row and plays the role of a missing (falsy) id. */
  type UserId = nat
  type GroupId = nat
  type MessageId = nat

  /** A live socket.io connection. */
  type ConnId = nat

  /** Instants are opaque integers (milliseconds); Date parsing is not modelled. */
  type Timestamp = int

  datatype Option<+T> = None | Some(value: T)
}
